=== FILE: README.md ===
# Students exam dashboard: a Dafny model of its client-side logic

The dashboard is a browser client for a remote record store of student exam
records. It lists records with pagination, sorting and search. It creates
records through a validated form and deletes them after confirmation. It draws
two charts computed on the client from the full record set. This project models
the parts of that client that are plain sequential logic:

- **Gateway client** (`Gateway`, file `gateway.dfy`). It covers how a listing or
  search request becomes query parameters; the `sort` parameter is the field
  name, with a `-` prefix for descending order. It covers how the gateway's three
  response envelopes become one paginated result, with missing metadata
  defaulted. It also covers the merge that `updateRecord` sends and what
  `createRecord` resolves to.
- **Chart aggregation** (`ChartData`, file `chart_data.dfy`, with string helpers
  in `JsText`, file `js_text.dfy`). `getChartData` produces one
  score/attendance point per record. It also groups records into buckets by
  (floor of hours studied, floor of sleep hours) and averages the exam score
  per bucket. The grouping is a fold into an insertion-ordered map whose keys
  are strings `"<study>-<sleep>"`, decoded with `split('-')` at the end.
- **Dashboard page** (`Dashboard`, file `dashboard.dfy`). The view state is a
  record, and each user action is a transition function on it: search, sort,
  page size, previous and next, and the delete confirmation. It also models
  which gateway read a state asks for, the "Showing X to Y of Z" label and the
  table's exam score colours.
- **Add-record dialog** (`AddStudent`, file `add_student.dfy`). It models the
  ordered validation of the five parsed values and what a submission does to
  the dialog.
- **Scatter chart colours** (`ScatterColour`, file `scatter_colour.dfy`). This is
  `getColor`, compared with the table's colours.

`Records` (`records.dfy`) holds the shared entities. `Wrappers` (`wrappers.dfy`)
holds `Option` and `Result`.

Behaviour the model makes explicit:

- Bucket keys are decoded correctly only when both floors are non-negative.
  A negative study bucket `s` comes back as `(0, -s)` and a negative sleep
  bucket as `0`. So `(-1, 3)` and `(0, 1)` are drawn at the same point
  (`ChartData.DecodeKeyAsWritten`, `ChartData.NegativeBucketCollides`). The
  add-record form never produces negative hours, but records from elsewhere can.
- In search mode the page fetches `search(query)` with no page or limit.
  Previous, Next and the page size therefore change the page number in the
  label but not the request (`Dashboard.SearchModeIgnoresPaging`). The page
  count comes from the response's page size, ten when it sends none, while
  the label uses the selector's: with 50 rows per page a 100-record result
  lets Next reach page 4, labelled "Showing 151 to 100"
  (`Dashboard.LabelPastLastRow`).
- The listing request drops page 0 because `0` is falsy. The search request
  sends it, because it tests only for `undefined`.
- Cancelling the delete dialog closes it but does not clear the pending id.
  The dialog's `onOpenChange={setDeleteDialogOpen}` (Dashboard.tsx:320) only
  resets the open flag, and `Dashboard.CloseDeleteDialog` does the same. The stale id is
  harmless: confirming is only possible from the open dialog, and opening it
  sets a new id.
- The chart colours a score red below 30; the table colours it red only
  below 25.
- `createRecord` returns `result.data || result || newRecord`. A truthy body
  that is not a record, such as `{success: true}`, is returned as it is, and
  the dialog then announces "Student undefined added successfully!". The
  locally built record is used only when the body parses to `false`, `0` or
  `""`. A body that parses to `null` makes the read of `result.data` throw,
  and so does an accepted response whose body is not JSON; in both cases the
  dialog keeps the form and shows the failure toast
  (`Gateway.CreatedStudentId`, `AddStudent.SubmitAnnouncesId`,
  `AddStudent.NullBodyKeepsForm`).

## Model

| member | source | states |
|---|---|---|
| `Gateway.SortValueRoundTrip` | students_exam_dashboard/client/src/lib/api.ts:50-53 | The `sort` value reads back as the requested field, descending exactly when `desc` was requested and ascending for any other or absent order |
| `Gateway.SortValuePrefix` | students_exam_dashboard/client/src/lib/api.ts:51 | The `-` prefix is present if and only if the order is `desc` |
| `Gateway.SortValue` | students_exam_dashboard/client/src/lib/api.ts:51 | The `sort` value: the field name, with a `-` prefix exactly for descending order; specified by `Gateway.SortValueRoundTrip` and `Gateway.SortValuePrefix` |
| `Gateway.ListingParams` | students_exam_dashboard/client/src/lib/api.ts:44-56 | Each of page, limit, sort and q is sent exactly when its argument is truthy (page and size non-zero, search non-empty, a sort field given), carrying that argument's value; the sort is sent only with a sort field |
| `Gateway.SearchParams` | students_exam_dashboard/client/src/lib/api.ts:121-131 | The query is always sent, first and once; page and limit are sent whenever given, zero included; no sort is sent |
| `Gateway.PageZeroTreatedDifferently` | students_exam_dashboard/client/src/lib/api.ts:44-46 | Page 0 is omitted by the listing request but sent by the search request (lines 126-128) |
| `Gateway.Normalise` | students_exam_dashboard/client/src/lib/api.ts:61-72 | The items are kept; total falls back to the item count, page to the requested page then 1, page size to the requested size then 10, with absent and 0 both counting as missing; page and page size are never 0; without a server page count, totalPages is the ceiling of total / pageSize |
| `Gateway.Ceil` | students_exam_dashboard/client/src/lib/api.ts:71 | `Math.ceil`: the least integer not below its argument |
| `Gateway.PageCountBounds` | students_exam_dashboard/client/src/lib/api.ts:71 | For total > 0 and page size > 0 the computed page count is at least 1 and (pages-1)·size < total ≤ pages·size |
| `Gateway.TwentyThreeRecordsMakeThreePages` | students_exam_dashboard/client/src/lib/api.ts:68-71 | 23 records with no metadata and the default size 10 give 3 pages |
| `Gateway.MergeFieldwise` | students_exam_dashboard/client/src/lib/api.ts:196 | Every field of the merged record is the update's value when the update has that field, and the fetched record's value otherwise |
| `Gateway.Merge` | students_exam_dashboard/client/src/lib/api.ts:196 | `{ ...existingRecord, ...updates }`; specified field by field by `Gateway.MergeFieldwise` and algebraically by `Gateway.MergeLaws` |
| `Gateway.GetDeterminesRecord` | students_exam_dashboard/client/src/lib/api.ts:3-11 | Records that agree on every field are equal, so the field-wise statement of the merge determines it |
| `Gateway.MergeLaws` | students_exam_dashboard/client/src/lib/api.ts:196 | An empty update leaves the record unchanged, applying an update twice equals applying it once, and successive updates compose into one |
| `Gateway.UpdateRecord` | students_exam_dashboard/client/src/lib/api.ts:191-211 | A failed fetch means no PUT and a null result; otherwise the PUT carries the merge; the result is non-null exactly when the fetch and the PUT both succeed, and is then the merged record |
| `Gateway.CreateRecord` | students_exam_dashboard/client/src/lib/api.ts:161-188 | A non-success status fails with "Failed to create record: " and the status text, and a body that does not parse or parses to `null` fails too (reading `data` of `null` throws); any other parsed body resolves to its `data` when that is truthy, else to the body itself when it is truthy, else (`false`, `0` or `""`) to the locally built record with the generated display id |
| `Gateway.CreatedStudentId` | students_exam_dashboard/client/src/lib/api.ts:183-187 | A `null` body resolves to nothing; for any other body the `student_id` of the resolved value is the generated id when the body is `false`, `0` or `""`, the record under a truthy `data`, otherwise the body as a record, and it is `undefined` exactly when the chosen value is not a student record |
| `Gateway.NonRecordBodyHasNoStudentId` | students_exam_dashboard/client/src/lib/api.ts:187 | A truthy body with no `data` that is not a record (`{success: true}`) is returned unchanged and has no `student_id` |
| `ChartData.ScoreVsAttendance` | students_exam_dashboard/client/src/lib/api.ts:230-233 | One point per record, same length, and the i-th point is record i's attendance and exam score |
| `ChartData.EncodeKey` | students_exam_dashboard/client/src/lib/api.ts:241 | The template literal `${studyBucket}-${sleepBucket}`; its decoding is given by `ChartData.DecodeKeyAsWritten` |
| `ChartData.KeyOf` | students_exam_dashboard/client/src/lib/api.ts:239-241 | A record's key from its floored study and sleep hours; related to the floored pair by `ChartData.KeyIdentifiesPair` |
| `ChartData.DecodeKey` | students_exam_dashboard/client/src/lib/api.ts:253 | `key.split('-').map(Number)`, taking the first two pieces; exact results in `ChartData.DecodeKeyAsWritten` and `ChartData.KeyRoundTrip` |
| `ChartData.DecodeKeyAsWritten` | students_exam_dashboard/client/src/lib/api.ts:241-253 | For every integer pair, splitting `"${s}-${l}"` on `-` gives (s, l) when both are non-negative, (0, -s) when s < 0, and (s, 0) when only l < 0 |
| `ChartData.KeyRoundTrip` | students_exam_dashboard/client/src/lib/api.ts:241-253 | Decoding inverts encoding on non-negative buckets |
| `ChartData.NegativeBucketCollides` | students_exam_dashboard/client/src/lib/api.ts:241-253 | The distinct keys of buckets (-1, 3) and (0, 1) decode to the same coordinates (0, 1) |
| `ChartData.AddScoreSpec` | students_exam_dashboard/client/src/lib/api.ts:243-249 | Adding a record's score bumps the sum and count of its key's entry, creating it at the end with a zero start when the key is new; every other entry is unchanged |
| `ChartData.AddScoreKeys` | students_exam_dashboard/client/src/lib/api.ts:243-245 | The map's key order after adding a score: unchanged when the key is present, the new key appended at the end otherwise (a `Map` keeps insertion order) |
| `ChartData.AddScoreKeeps` | students_exam_dashboard/client/src/lib/api.ts:243-249 | Any entry under a different key keeps its position and its sum and count |
| `ChartData.AddScoreBumps` | students_exam_dashboard/client/src/lib/api.ts:243-249 | With distinct keys, the entry under the key is its old entry (or the `{totalScore: 0, count: 0}` start) with the score added and the count raised by one |
| `ChartData.KeysOfAt` | students_exam_dashboard/client/src/lib/api.ts:238-241 | The i-th key computed by the loop is the i-th record's floored study and sleep bucket joined by `-` |
| `ChartData.AddScore` | students_exam_dashboard/client/src/lib/api.ts:243-249 | Adding one score adds one to the total count and grows the map by at most one entry, and keeps every count positive |
| `ChartData.Grouped` | students_exam_dashboard/client/src/lib/api.ts:236-250 | The grouping has no more entries than records and every entry's count is at least 1 |
| `ChartData.GroupedMatchesReference` | students_exam_dashboard/client/src/lib/api.ts:236-250 | The map's keys are the records' keys without repetition in order of first occurrence; each entry's count and score sum are those of exactly the records with its key; the counts sum to the number of records |
| `ChartData.BucketsMatchReference` | students_exam_dashboard/client/src/lib/api.ts:252-259 | One bucket per distinct key, in first-occurrence order, keys pairwise distinct, every record's key present; each bucket's average is the score sum of its records over their count (at least 1) and its coordinates are the decoded key; no records give no buckets |
| `ChartData.ToBucket` | students_exam_dashboard/client/src/lib/api.ts:252-259 | One map entry as a bucket: the decoded key and total over count; specified by `ChartData.BucketsMatchReference` |
| `ChartData.StudySleepBuckets` | students_exam_dashboard/client/src/lib/api.ts:252-259 | The buckets in the map's insertion order; specified by `ChartData.BucketsMatchReference` and the non-negative-hours lemmas |
| `ChartData.GetChartData` | students_exam_dashboard/client/src/lib/api.ts:223-265 | The two chart series; specified by `ChartData.ScoreVsAttendance` and `ChartData.BucketsMatchReference` |
| `ChartData.NonNegativeBucketAverages` | students_exam_dashboard/client/src/lib/api.ts:252-258 | With non-negative hours, every bucket has numeric coordinates and its average is the mean exam score of the records whose floored (study, sleep) pair equals them |
| `ChartData.NonNegativeBucketsDistinct` | students_exam_dashboard/client/src/lib/api.ts:252-258 | With non-negative hours, no two buckets have the same coordinates |
| `ChartData.NonNegativeBucketsCover` | students_exam_dashboard/client/src/lib/api.ts:238-258 | With non-negative hours, every record's floored pair is the coordinates of some bucket |
| `ChartData.TwoRecordsOneBucket` | students_exam_dashboard/client/src/lib/api.ts:236-259 | Records (5.2, 7.9, 30) and (5.9, 7.1, 40) give the single bucket (5, 7) with average 35 |
| `JsText.IntToString` | students_exam_dashboard/client/src/lib/api.ts:241 | An integer in a template literal: non-empty, and starting with `-` exactly for a negative number; read back by `JsText.NatToStringRoundTrip`, `JsText.NumberReadsRendering` and `ChartData.DecodeKeyAsWritten` |
| `JsText.JsNumber` | students_exam_dashboard/client/src/lib/api.ts:253 | `Number` on a piece of a split key: a number exactly for a digit string, 0 for the empty string; specified by `JsText.NumberReadsRendering` |
| `JsText.NumberReadsRendering` | students_exam_dashboard/client/src/lib/api.ts:241-253 | `Number` of the rendering of a non-negative integer is that integer |
| `JsText.Split` | students_exam_dashboard/client/src/lib/api.ts:253 | `split('-')`: at least one piece and no piece holds the separator; specified by `JsText.SplitNoSeparator` and `JsText.SplitAtSeparator` |
| `JsText.SplitNoSeparator` | students_exam_dashboard/client/src/lib/api.ts:253 | A string without the separator splits into itself alone |
| `JsText.NatToStringRoundTrip` | students_exam_dashboard/client/src/lib/api.ts:241 | The decimal rendering of a natural number reads back as that number |
| `JsText.SplitAtSeparator` | students_exam_dashboard/client/src/lib/api.ts:253 | `split` at a separator preceded by a separator-free piece yields that piece followed by the split of the rest |
| `Dashboard.InitialFetch` | students_exam_dashboard/client/src/pages/Dashboard.tsx:38-74 | The first render lists page 1 at 10 per page sorted by ascending student id |
| `Dashboard.TrimEmptyIffBlank` | students_exam_dashboard/client/src/pages/Dashboard.tsx:51 | A query trims to the empty string exactly when all its characters are whitespace |
| `Dashboard.Trim` | students_exam_dashboard/client/src/pages/Dashboard.tsx:51 | `String.prototype.trim`; specified by `Dashboard.TrimEmptyIffBlank` |
| `Dashboard.FetchCall` | students_exam_dashboard/client/src/pages/Dashboard.tsx:48-64 | A query with a non-whitespace character selects search with the untrimmed query and no page or limit; otherwise listing with the current page, page size, sort field and order |
| `Dashboard.SearchSendsOnlyQuery` | students_exam_dashboard/client/src/pages/Dashboard.tsx:51-54 | In search mode the only query parameter sent is the search text |
| `Dashboard.ListingSendsPagingAndSort` | students_exam_dashboard/client/src/pages/Dashboard.tsx:57-62 | In listing mode the current page and size (when non-zero) and the signed sort field are sent |
| `Dashboard.FetchDone` | students_exam_dashboard/client/src/pages/Dashboard.tsx:48-70 | A finished fetch clears loading and replaces the data on success; a failed fetch keeps the previous data; nothing else changes |
| `Dashboard.FetchStart` | students_exam_dashboard/client/src/pages/Dashboard.tsx:48-49 | A starting fetch raises loading and changes nothing else |
| `Dashboard.Settle` | students_exam_dashboard/client/src/pages/Dashboard.tsx:72-74 | The effect on `[currentPage, pageSize, searchQuery, sortBy, sortOrder]`, which starts a fetch when one of them changed; specified by `Dashboard.SettleRaisesLoading` |
| `Dashboard.SettleRaisesLoading` | students_exam_dashboard/client/src/pages/Dashboard.tsx:48-74 | After a state change and the render's effect, loading is raised exactly when a dependency of the effect changed (or it was already raised), the rest of the state is the change itself, and the request is the changed state's |
| `Dashboard.SortTransitions` | students_exam_dashboard/client/src/pages/Dashboard.tsx:81-88 | The current column flips the order and two clicks restore the state; another column is selected ascending, and a second click makes it descending; only sort state changes, and the page always refetches with loading raised |
| `Dashboard.ResetsToFirstPage` | students_exam_dashboard/client/src/pages/Dashboard.tsx:76-79 | Searching (and changing the page size, lines 158-161) sets page 1 and the new value and leaves sort and everything else unchanged; loading is raised exactly when the value or the page actually changed |
| `Dashboard.PagingStaysInRange` | students_exam_dashboard/client/src/pages/Dashboard.tsx:254-276 | With data loaded, Previous gives max(1, p-1) and Next min(totalPages, p+1) for the data's page count; both keep a page in [1, totalPages] there, and away from the ends each undoes the other |
| `Dashboard.HandleSearch` | students_exam_dashboard/client/src/pages/Dashboard.tsx:76-79 | New search text and page 1; specified by `Dashboard.ResetsToFirstPage` |
| `Dashboard.ChangePageSize` | students_exam_dashboard/client/src/pages/Dashboard.tsx:158-161 | New page size and page 1; specified by `Dashboard.ResetsToFirstPage` |
| `Dashboard.HandleSort` | students_exam_dashboard/client/src/pages/Dashboard.tsx:81-88 | Flip on the current column, ascending on another; specified by `Dashboard.SortTransitions` |
| `Dashboard.PreviousPage` | students_exam_dashboard/client/src/pages/Dashboard.tsx:257 | `Math.max(1, p - 1)`; specified by `Dashboard.PagingStaysInRange` |
| `Dashboard.NextPage` | students_exam_dashboard/client/src/pages/Dashboard.tsx:271 | `Math.min(data.totalPages, p + 1)` with the page count read from the loaded data, which the button needs in order to render (:248); specified by `Dashboard.PagingStaysInRange` |
| `Dashboard.SearchModeIgnoresPaging` | students_exam_dashboard/client/src/pages/Dashboard.tsx:51-54 | In search mode Previous, Next (once data is loaded) and a page-size change leave the gateway request unchanged |
| `Dashboard.HandleDelete` | students_exam_dashboard/client/src/pages/Dashboard.tsx:90-108 | With no pending id or id 0, nothing happens and no call is made; otherwise the pending id is deleted, the dialog closes and the id is cleared whatever the outcome; the current view is refetched, with loading raised, exactly when delete reports success, and a success toast appears exactly then |
| `Dashboard.DeleteDialogTransitions` | students_exam_dashboard/client/src/pages/Dashboard.tsx:110-113 | Opening sets the pending id and opens the dialog; closing (line 320) only hides it and keeps the id; neither refetches nor raises loading |
| `Dashboard.OpenDeleteDialog` | students_exam_dashboard/client/src/pages/Dashboard.tsx:110-113 | Arms the dialog with the row's id; specified by `Dashboard.DeleteDialogTransitions` |
| `Dashboard.CloseDeleteDialog` | students_exam_dashboard/client/src/pages/Dashboard.tsx:320 | Resets only the open flag; specified by `Dashboard.DeleteDialogTransitions` |
| `Dashboard.ConfirmedDeleteRefetchesOnce` | students_exam_dashboard/client/src/pages/Dashboard.tsx:90-113 | Open then confirm on a non-zero id makes one delete call, ends closed with no pending id, triggers no effect refetch, and issues exactly one refetch of the current view, with loading raised, when delete succeeds and none otherwise |
| `Dashboard.RangeWithinTotal` | students_exam_dashboard/client/src/pages/Dashboard.tsx:251 | For a page within the computed page count, the label runs from (page-1)·size+1 to min(page·size, total), with 1 ≤ from ≤ to ≤ total and at most one page of rows. The source does not keep the page within that count: in search mode the count comes from the response's page size (ten when it sends none) rather than the selector's, so Next can pass it (see `Dashboard.LabelPastLastRow`) |
| `Dashboard.RangeLabel` | students_exam_dashboard/client/src/pages/Dashboard.tsx:251 | The first and last row numbers of "Showing X to Y"; specified by `Dashboard.RangeWithinTotal` and `Dashboard.LabelPastLastRow` |
| `Dashboard.LabelPastLastRow` | students_exam_dashboard/client/src/pages/Dashboard.tsx:248-271 | A search for "a" whose response is a `{data: [...]}` body of 100 records with no pagination metadata, read with 50 rows per page, is counted as 10 pages (api.ts's default size of ten) and shows the footer; three clicks on Next reach page 4 without changing the request, and the label reads "Showing 151 to 100" |
| `Dashboard.ShowsPagination` | students_exam_dashboard/client/src/pages/Dashboard.tsx:248 | `data && data.totalPages > 1`; specified by `Dashboard.FooterShownIffOverflow` |
| `Dashboard.FooterShownIffOverflow` | students_exam_dashboard/client/src/pages/Dashboard.tsx:248 | With a client-computed page count and any non-negative total, the pagination footer renders exactly when total exceeds the page size |
| `Dashboard.TableBand` | students_exam_dashboard/client/src/pages/Dashboard.tsx:222-226 | Green if and only if score ≥ 35, yellow if and only if 25 ≤ score < 35, red if and only if score < 25 |
| `Dashboard.TableBandMonotone` | students_exam_dashboard/client/src/pages/Dashboard.tsx:222-226 | A higher score never gets a worse table colour |
| `AddStudent.HandleChange` | students_exam_dashboard/client/src/components/AddStudentDialog.tsx:33-35 | Typing sets the edited input's text and leaves the other four unchanged |
| `AddStudent.FirstFailingCheckReported` | students_exam_dashboard/client/src/components/AddStudentDialog.tsx:51-76 | Validation fails exactly when some check fails and reports the first failing one in the order NaN, hours, sleep, attendance; on success the record carries the parsed values |
| `AddStudent.Validate` | students_exam_dashboard/client/src/components/AddStudentDialog.tsx:51-76 | The ordered checks; specified by `AddStudent.FirstFailingCheckReported`, `AddStudent.AcceptedIffInRange` and `AddStudent.ScoresNotRangeChecked` |
| `AddStudent.AcceptedIffInRange` | students_exam_dashboard/client/src/components/AddStudentDialog.tsx:52-75 | A submission passes if and only if all five values are numbers, hours studied and sleep hours are in [0, 24] and attendance is in [0, 100] |
| `AddStudent.ScoresNotRangeChecked` | students_exam_dashboard/client/src/components/AddStudentDialog.tsx:58-77 | Any numeric previous score and exam score leave the verdict unchanged |
| `AddStudent.HoursBoundaries` | students_exam_dashboard/client/src/components/AddStudentDialog.tsx:59-63 | 24 hours studied is accepted; 25 and -0.1 are rejected with the hours message |
| `AddStudent.HandleSubmit` | students_exam_dashboard/client/src/components/AddStudentDialog.tsx:37-99 | A validation failure shows that check's message and makes no create call; otherwise create is called with the parsed values; on success the form resets to five empty strings, the dialog closes and `onSuccess` runs once; on failure none of these happen; loading always ends false |
| `AddStudent.SubmitThroughGateway` | students_exam_dashboard/client/src/components/AddStudentDialog.tsx:78-95 | A rejected POST, or an accepted one whose body does not parse, leaves the dialog as it was except for the loading flag (form and open state kept), calls nothing back and shows "Failed to add student. Please try again." |
| `AddStudent.NullBodyKeepsForm` | students_exam_dashboard/client/src/lib/api.ts:187 | A body that parses to `null` fails in the gateway, so the dialog keeps its state except for the loading flag, calls nothing back and shows "Failed to add student. Please try again." |
| `AddStudent.SubmitAnnouncesId` | students_exam_dashboard/client/src/components/AddStudentDialog.tsx:78-80 | A body that parses to `false`, `0` or `""` announces the generated display id; a truthy non-record body announces "Student undefined added successfully!" |
| `ScatterColour.GetColor` | students_exam_dashboard/client/src/components/StudySleepScatterChart.tsx:44-48 | Green if and only if score ≥ 35, yellow if and only if 30 ≤ score < 35, red if and only if score < 30 |
| `ScatterColour.ChartBand` | students_exam_dashboard/client/src/components/StudySleepScatterChart.tsx:44-47 | The chart's bands as if-and-only-ifs: green from 35, yellow on [30, 35), red below 30; compared with the table by `ScatterColour.ChartAndTableBands` |
| `ScatterColour.GetColorMonotone` | students_exam_dashboard/client/src/components/StudySleepScatterChart.tsx:44-48 | Raising the score never moves it to a worse colour |
| `ScatterColour.ChartAndTableBands` | students_exam_dashboard/client/src/components/StudySleepScatterChart.tsx:45-47 | Chart and table colours differ exactly for scores in [25, 30), where the chart shows red and the table yellow |

## Left out

- HTTP, `fetch`, JSON parsing and the base URL are not modelled. Each gateway exchange is reduced to its outcome: a status flag plus an optional parsed body, or an exception.
- `getRecord` (api.ts:76-82) reduces to the `fetched` argument of `Gateway.UpdateRecord`. `deleteRecord` (api.ts:214-220) reduces to the `DeleteOutcome` argument of `Dashboard.HandleDelete`.
- `aggregate` (api.ts:85-118) and `getAllData` (api.ts:153-158) only forward the server's output. The chart aggregation takes the record sequence as its input.
- Gateway.CreateRecord: a body that does not parse fails with a fixed message, not the JavaScript engine's parse-error text, and a `null` body with V8's TypeError text; the dialog shows neither.
- The random display id `S` plus three characters (api.ts:163) is nondeterministic. It is a parameter of `Gateway.CreateRecord`.
- `parseFloat` and `parseInt` are not modelled. Their results are inputs, with `None` standing for NaN.
- The model uses exact reals, not IEEE doubles. Rounding, NaN and infinities inside records, and `toFixed` are not represented.
- `JsText.JsNumber` follows `Number` only on digit strings, which are the only strings that splitting a bucket key produces. It maps every other string to `None`.
- Response envelopes are the three documented shapes. A `data` object without `items` is not represented.
- Partial updates treat a field as present or absent. A key present with the value `undefined`, which the JavaScript spread would copy, is not represented.
- Overlapping fetches that resolve out of order are asynchronous concurrency. Each fetch is modelled as an issued call plus its completion (`Dashboard.FetchDone`).
- React rendering is not modelled: hooks, dialogs, Recharts layout, toast display, console logging, and the whole of ScoreVsAttendanceChart.tsx, which only presents data.

=== FILE: add_student.dfy ===
/** The add-record dialog: the ordered validation of the five parsed form
    values and what a submission does to the dialog. Parsing the text fields
    (`parseFloat`, `parseInt`) is abstracted: the parsed values are inputs,
    with `None` standing for NaN. */
module AddStudent {
  import opened Wrappers
  import opened Records
  import opened Gateway

  /** The raw text of the five inputs */
  datatype Form = Form(
    hoursStudied: string,
    sleepHours: string,
    attendancePercent: string,
    previousScores: string,
    examScore: string)

  const EmptyForm := Form("", "", "", "", "")

  /** The inputs of the form, as named in `handleChange` */
  datatype FormField = HoursField | SleepField | AttendanceField | PreviousField | ExamField

  function Text(f: Form, field: FormField): string {
    match field
    case HoursField => f.hoursStudied
    case SleepField => f.sleepHours
    case AttendanceField => f.attendancePercent
    case PreviousField => f.previousScores
    case ExamField => f.examScore
  }

  /** `handleChange`: typing into one input */
  function HandleChange(f: Form, field: FormField, value: string): (r: Form)
    ensures Text(r, field) == value
    ensures forall other :: other != field ==> Text(r, other) == Text(f, other)
  {
    match field
    case HoursField => f.(hoursStudied := value)
    case SleepField => f.(sleepHours := value)
    case AttendanceField => f.(attendancePercent := value)
    case PreviousField => f.(previousScores := value)
    case ExamField => f.(examScore := value)
  }

  /** The form after parsing: `previous_scores` with `parseInt`, the others
      with `parseFloat` */
  datatype Parsed = Parsed(
    hoursStudied: Option<real>,
    sleepHours: Option<real>,
    attendancePercent: Option<real>,
    previousScores: Option<int>,
    examScore: Option<real>)

  datatype ValidationError = NotANumber | HoursOutOfRange | SleepOutOfRange | AttendanceOutOfRange {
    function Message(): string {
      match this
      case NotANumber => "Please enter valid numbers for all fields"
      case HoursOutOfRange => "Hours studied must be between 0 and 24"
      case SleepOutOfRange => "Sleep hours must be between 0 and 24"
      case AttendanceOutOfRange => "Attendance must be between 0 and 100"
    }
  }

  predicate AllNumbers(p: Parsed) {
    p.hoursStudied.Some? && p.sleepHours.Some? && p.attendancePercent.Some?
    && p.previousScores.Some? && p.examScore.Some?
  }

  /** The checks of `handleSubmit`, in order; the first failure is reported */
  function Validate(p: Parsed): Result<RecordFields, ValidationError> {
    if !AllNumbers(p) then Failure(NotANumber)
    else if p.hoursStudied.value < 0.0 || p.hoursStudied.value > 24.0 then Failure(HoursOutOfRange)
    else if p.sleepHours.value < 0.0 || p.sleepHours.value > 24.0 then Failure(SleepOutOfRange)
    else if p.attendancePercent.value < 0.0 || p.attendancePercent.value > 100.0 then Failure(AttendanceOutOfRange)
    else Success(RecordFields(p.hoursStudied.value, p.sleepHours.value, p.attendancePercent.value,
                              p.previousScores.value, p.examScore.value))
  }

  /** Reference: every check the values fail, in the form's order. A range
      check on a value that is not a number does not apply. */
  function FailedChecks(p: Parsed): seq<ValidationError> {
    (if AllNumbers(p) then [] else [NotANumber])
    + (if p.hoursStudied.Some? && !(0.0 <= p.hoursStudied.value <= 24.0) then [HoursOutOfRange] else [])
    + (if p.sleepHours.Some? && !(0.0 <= p.sleepHours.value <= 24.0) then [SleepOutOfRange] else [])
    + (if p.attendancePercent.Some? && !(0.0 <= p.attendancePercent.value <= 100.0) then [AttendanceOutOfRange] else [])
  }

  /** Validation fails exactly when some check fails, and then reports the
      first failing check in the fixed order (numbers, hours, sleep,
      attendance); on success the record carries the parsed values */
  lemma FirstFailingCheckReported(p: Parsed)
    ensures Validate(p).Failure? <==> |FailedChecks(p)| > 0
    ensures Validate(p).Failure? ==> Validate(p).error == FailedChecks(p)[0]
    ensures Validate(p).Success? ==>
              && Some(Validate(p).value.hoursStudied) == p.hoursStudied
              && Some(Validate(p).value.sleepHours) == p.sleepHours
              && Some(Validate(p).value.attendancePercent) == p.attendancePercent
              && Some(Validate(p).value.previousScores) == p.previousScores
              && Some(Validate(p).value.examScore) == p.examScore
  {
  }

  /** A submission passes exactly when all five values are numbers, hours
      studied and sleep hours lie in [0, 24] and attendance in [0, 100];
      the two scores may be anything */
  lemma AcceptedIffInRange(p: Parsed)
    ensures Validate(p).Success? <==>
              && AllNumbers(p)
              && 0.0 <= p.hoursStudied.value <= 24.0
              && 0.0 <= p.sleepHours.value <= 24.0
              && 0.0 <= p.attendancePercent.value <= 100.0
  {
  }

  /** Changing the previous or exam score to any number never changes the
      verdict of a submission whose values are all numbers */
  lemma ScoresNotRangeChecked(p: Parsed, previous: int, exam: real)
    requires AllNumbers(p)
    ensures Validate(p.(previousScores := Some(previous), examScore := Some(exam))).Success? == Validate(p).Success?
  {
  }

  /** Boundaries: 24 hours studied is accepted, 25 and -0.1 are rejected */
  lemma HoursBoundaries(p: Parsed)
    requires AllNumbers(p)
    requires 0.0 <= p.sleepHours.value <= 24.0 && 0.0 <= p.attendancePercent.value <= 100.0
    ensures Validate(p.(hoursStudied := Some(24.0))).Success?
    ensures Validate(p.(hoursStudied := Some(25.0))) == Failure(HoursOutOfRange)
    ensures Validate(p.(hoursStudied := Some(-0.1))) == Failure(HoursOutOfRange)
  {
  }

  /** A template literal's rendering of a possibly undefined string */
  function Shown(v: Option<string>): string {
    if v.Some? then v.value else "undefined"
  }

  datatype DialogState = DialogState(open: bool, loading: bool, form: Form)

  /** The effects of one submission: the dialog afterwards, the values sent to
      `createRecord` (if any), how often `onSuccess` ran and the toast shown */
  datatype SubmitStep = SubmitStep(after: DialogState, createCall: Option<RecordFields>, successCallbacks: nat, toast: Toast)

  /** `handleSubmit`; `create` is what `createRecord` resolved to, a failure
      standing for any exception it raised */
  function HandleSubmit(st: DialogState, parsed: Parsed, create: Result<Created, string>): (step: SubmitStep)
    ensures !step.after.loading
    ensures Validate(parsed).Failure? ==>
              && step.createCall.None?
              && step.after == st.(loading := false)
              && step.successCallbacks == 0
              && step.toast == ErrorToast(Validate(parsed).error.Message())
    ensures Validate(parsed).Success? ==> step.createCall == Some(Validate(parsed).value)
    ensures Validate(parsed).Success? && create.Success? ==>
              && step.after == DialogState(false, false, EmptyForm)
              && step.successCallbacks == 1
              && step.toast == SuccessToast("Student " + Shown(create.value.StudentId()) + " added successfully!")
    ensures Validate(parsed).Success? && create.Failure? ==>
              && step.after == st.(loading := false)
              && step.successCallbacks == 0
              && step.toast == ErrorToast("Failed to add student. Please try again.")
  {
    match Validate(parsed)
    case Failure(e) => SubmitStep(st.(loading := false), None, 0, ErrorToast(e.Message()))
    case Success(fields) =>
      match create
      case Success(created) =>
        SubmitStep(DialogState(false, false, EmptyForm), Some(fields), 1,
                   SuccessToast("Student " + Shown(created.StudentId()) + " added successfully!"))
      case Failure(_) =>
        SubmitStep(st.(loading := false), Some(fields), 0, ErrorToast("Failed to add student. Please try again."))
  }

  /** End to end with the gateway, when the create call throws: a rejected
      POST, or an accepted one whose body does not parse, keeps the typed
      values and the open dialog, calls nothing back and shows the failure
      toast */
  lemma SubmitThroughGateway(st: DialogState, parsed: Parsed, studentId: string, statusText: string)
    requires Validate(parsed).Success?
    ensures var step := HandleSubmit(st, parsed, CreateRecord(studentId, Validate(parsed).value, Rejected(statusText)));
            && step.after == st.(loading := false)
            && step.successCallbacks == 0
            && step.toast == ErrorToast("Failed to add student. Please try again.")
    ensures var step := HandleSubmit(st, parsed, CreateRecord(studentId, Validate(parsed).value, Unparsable));
            && step.after == st.(loading := false)
            && step.successCallbacks == 0
            && step.toast == ErrorToast("Failed to add student. Please try again.")
  {
  }

  /** A `null` body fails in the gateway, so the dialog stays as typed and
      reports the generic failure */
  lemma NullBodyKeepsForm(st: DialogState, parsed: Parsed, studentId: string)
    requires Validate(parsed).Success?
    ensures var step := HandleSubmit(st, parsed, CreateRecord(studentId, Validate(parsed).value, JsonBody(NullJson)));
            && step.after == st.(loading := false)
            && step.successCallbacks == 0
            && step.toast == ErrorToast("Failed to add student. Please try again.")
  {
  }

  /** End to end with the gateway, when the create call resolves: a body
      that parses to `false`, `0` or `""` reports the display id generated
      for it; a truthy body that is not a record reports `undefined` */
  lemma SubmitAnnouncesId(st: DialogState, parsed: Parsed, studentId: string)
    requires Validate(parsed).Success?
    ensures var fields := Validate(parsed).value;
            && HandleSubmit(st, parsed, CreateRecord(studentId, fields, JsonBody(FalsyJson))).toast
               == SuccessToast("Student " + studentId + " added successfully!")
            && HandleSubmit(st, parsed, CreateRecord(studentId, fields, JsonBody(TruthyJson(None, None)))).toast
               == SuccessToast("Student " + "undefined" + " added successfully!")
  {
    var fields := Validate(parsed).value;
    NonRecordBodyHasNoStudentId(studentId, fields);
    assert CreateRecord(studentId, fields, JsonBody(FalsyJson)).value.StudentId() == Some(studentId);
  }
}

=== FILE: chart_data.dfy ===
/** The client-side chart aggregation (`getChartData`): one score/attendance
    point per record, and per-bucket average exam scores where a bucket is the
    pair (floor of hours studied, floor of sleep hours). Buckets are grouped
    under a string key `"<study>-<sleep>"` in an insertion-ordered map and the
    key is decoded again with `split('-')` when the buckets are emitted. */
module ChartData {
  import opened Wrappers
  import opened Records
  import opened JsText

  // ---------------------------------------------------------------------
  // Score versus attendance

  datatype Point = Point(attendance: real, score: real)

  function ScoreVsAttendance(data: seq<StudentRecord>): (points: seq<Point>)
    ensures |points| == |data|
    ensures forall i :: 0 <= i < |data| ==>
              points[i] == Point(data[i].attendancePercent, data[i].examScore)
  {
    if |data| == 0 then []
    else
      var last := data[|data| - 1];
      ScoreVsAttendance(data[..|data| - 1]) + [Point(last.attendancePercent, last.examScore)]
  }

  // ---------------------------------------------------------------------
  // Bucket keys

  /** The template literal `${study}-${sleep}` */
  function EncodeKey(study: int, sleep: int): string {
    IntToString(study) + "-" + IntToString(sleep)
  }

  function KeyOf(r: StudentRecord): string {
    EncodeKey(r.hoursStudied.Floor, r.sleepHours.Floor)
  }

  /** `const [study, sleep] = key.split('-').map(Number)`; a missing second
      piece is `undefined`, shown as `None` like a NaN */
  function DecodeKey(key: string): (Option<int>, Option<int>) {
    var parts := Split(key, '-');
    (JsNumber(parts[0]), if |parts| > 1 then JsNumber(parts[1]) else None)
  }

  lemma DigitsHaveNoSeparator(s: string)
    requires AllDigits(s)
    ensures '-' !in s
  {
  }

  /** Decoding looks at the first two pieces only */
  lemma DecodeFromPieces(key: string, first: string, second: string, rest: seq<string>)
    requires Split(key, '-') == [first, second] + rest
    ensures DecodeKey(key) == (JsNumber(first), JsNumber(second))
  {
  }

  /** What decoding actually recovers, for every pair of integers: the pair
      itself when both are non-negative; otherwise the minus sign is taken for
      a separator, so a negative study bucket s decodes as (0, -s) and a
      negative sleep bucket as 0. */
  lemma DecodeKeyAsWritten(study: int, sleep: int)
    ensures DecodeKey(EncodeKey(study, sleep)) ==
              if study < 0 then (Some(0), Some(-study))
              else if sleep < 0 then (Some(study), Some(0))
              else (Some(study), Some(sleep))
  {
    if study < 0 {
      DecodeNegativeStudy(study, sleep);
    } else if sleep < 0 {
      DecodeNegativeSleep(study, sleep);
    } else {
      DecodeNonNegative(study, sleep);
    }
  }

  lemma SplitTwoPieces(a: string, b: string)
    requires '-' !in a && '-' !in b
    ensures Split(a + "-" + b, '-') == [a, b]
  {
    SplitNoSeparator(b, '-');
    SplitAtSeparator(a, b, '-');
  }

  lemma LeadingSeparatorKey(a: string, b: string)
    ensures "-" + a + "-" + b == ['-'] + (a + ['-'] + b)
  {
  }

  lemma SplitLeadingSeparator(a: string, b: string)
    requires '-' !in a
    ensures Split("-" + a + "-" + b, '-') == ["", a] + Split(b, '-')
  {
    var t := a + ['-'] + b;
    LeadingSeparatorKey(a, b);
    SplitLeading(t, '-');
    SplitAtSeparator(a, b, '-');
  }

  lemma SplitDoubledSeparator(a: string, b: string)
    requires '-' !in a && '-' !in b
    ensures Split(a + "-" + ("-" + b), '-') == [a, "", b]
  {
    SplitNoSeparator(b, '-');
    SplitLeading(b, '-');
    SplitAtSeparator(a, "-" + b, '-');
  }

  /** A key that starts with the separator decodes to 0 and the digits after it */
  lemma DecodeLeadingSeparator(key: string, digits: string, tail: string)
    requires AllDigits(digits) && key == "-" + digits + "-" + tail
    ensures DecodeKey(key) == (Some(0), Some(DigitsValue(digits)))
  {
    DigitsHaveNoSeparator(digits);
    SplitLeadingSeparator(digits, tail);
    DecodeFromPieces(key, "", digits, Split(tail, '-'));
  }

  lemma DecodeNegativeStudy(study: int, sleep: int)
    requires study < 0
    ensures DecodeKey(EncodeKey(study, sleep)) == (Some(0), Some(-study))
  {
    var n: nat := -study;
    var ns, tail := NatToString(n), IntToString(sleep);
    NatToStringRoundTrip(n);
    assert EncodeKey(study, sleep) == "-" + ns + "-" + tail;
    DecodeLeadingSeparator(EncodeKey(study, sleep), ns, tail);
  }

  lemma DecodeNegativeSleep(study: int, sleep: int)
    requires study >= 0 && sleep < 0
    ensures DecodeKey(EncodeKey(study, sleep)) == (Some(study), Some(0))
  {
    var ns, nl := NatToString(study), NatToString(-sleep);
    DigitsHaveNoSeparator(ns);
    DigitsHaveNoSeparator(nl);
    SplitDoubledSeparator(ns, nl);
    assert EncodeKey(study, sleep) == ns + "-" + ("-" + nl);
    DecodeFromPieces(EncodeKey(study, sleep), ns, "", [nl]);
    NatToStringRoundTrip(study);
  }

  lemma DecodeNonNegative(study: int, sleep: int)
    requires study >= 0 && sleep >= 0
    ensures DecodeKey(EncodeKey(study, sleep)) == (Some(study), Some(sleep))
  {
    var ns, nl := NatToString(study), NatToString(sleep);
    DigitsHaveNoSeparator(ns);
    DigitsHaveNoSeparator(nl);
    SplitTwoPieces(ns, nl);
    assert EncodeKey(study, sleep) == ns + "-" + nl;
    DecodeFromPieces(EncodeKey(study, sleep), ns, nl, []);
    NatToStringRoundTrip(study);
    NatToStringRoundTrip(sleep);
  }

  /** Decoding inverts encoding on non-negative buckets */
  lemma KeyRoundTrip(study: int, sleep: int)
    requires study >= 0 && sleep >= 0
    ensures DecodeKey(EncodeKey(study, sleep)) == (Some(study), Some(sleep))
  {
    DecodeKeyAsWritten(study, sleep);
  }

  /** Two different buckets can be emitted with the same coordinates:
      (-1, 3) and (0, 1) both decode to (0, 1) */
  lemma NegativeBucketCollides()
    ensures EncodeKey(-1, 3) != EncodeKey(0, 1)
    ensures DecodeKey(EncodeKey(-1, 3)) == DecodeKey(EncodeKey(0, 1)) == (Some(0), Some(1))
  {
    DecodeKeyAsWritten(-1, 3);
    DecodeKeyAsWritten(0, 1);
    assert EncodeKey(-1, 3)[0] == '-';
    assert EncodeKey(0, 1)[0] == '0';
  }

  // ---------------------------------------------------------------------
  // Grouping

  /** A map entry: the key with its running score total and record count */
  datatype Group = Group(key: string, totalScore: real, count: nat)

  function Keys(groups: seq<Group>): (keys: seq<string>)
    ensures |keys| == |groups|
    ensures forall i :: 0 <= i < |groups| ==> keys[i] == groups[i].key
  {
    if |groups| == 0 then [] else [groups[0].key] + Keys(groups[1..])
  }

  predicate Distinct<T(==)>(s: seq<T>) {
    forall i, j :: 0 <= i < j < |s| ==> s[i] != s[j]
  }

  /** `group.totalScore += score; group.count += 1` */
  function Bump(g: Group, score: real): Group {
    g.(totalScore := g.totalScore + score, count := g.count + 1)
  }

  /** The entry at position i before an insertion of `key`: the existing one,
      or the `{totalScore: 0, count: 0}` a new key starts from */
  function Slot(groups: seq<Group>, i: nat, key: string): Group {
    if i < |groups| then groups[i] else Group(key, 0.0, 0)
  }

  function SumCounts(groups: seq<Group>): nat {
    if |groups| == 0 then 0 else groups[0].count + SumCounts(groups[1..])
  }

  /** One step of the `forEach`: add a score under a key, creating the entry at
      the end of the map when the key is new */
  function AddScore(groups: seq<Group>, key: string, score: real): (r: seq<Group>)
    ensures |groups| <= |r| <= |groups| + 1
    ensures SumCounts(r) == SumCounts(groups) + 1
    ensures (forall i :: 0 <= i < |groups| ==> groups[i].count >= 1) ==>
              forall i :: 0 <= i < |r| ==> r[i].count >= 1
  {
    if |groups| == 0 then [Bump(Group(key, 0.0, 0), score)]
    else if groups[0].key == key then [Bump(groups[0], score)] + groups[1..]
    else [groups[0]] + AddScore(groups[1..], key, score)
  }

  /** Adding a score touches only the entry of its key: that entry is bumped
      (created at the end if the key is new) and every other entry is kept */
  lemma AddScoreSpec(groups: seq<Group>, key: string, score: real)
    requires Distinct(Keys(groups))
    ensures var r := AddScore(groups, key, score);
            && Keys(r) == (if key in Keys(groups) then Keys(groups) else Keys(groups) + [key])
            && (forall i :: 0 <= i < |r| && r[i].key != key ==> i < |groups| && r[i] == groups[i])
            && (forall i :: 0 <= i < |r| && r[i].key == key ==> r[i] == Bump(Slot(groups, i, key), score))
  {
    var r := AddScore(groups, key, score);
    AddScoreKeys(groups, key, score);
    DistinctKeysOf(groups);
    forall i | 0 <= i < |r| && r[i].key != key ensures i < |groups| && r[i] == groups[i] {
      AddScoreKeeps(groups, key, score, i);
    }
    forall i | 0 <= i < |r| && r[i].key == key ensures r[i] == Bump(Slot(groups, i, key), score) {
      AddScoreBumps(groups, key, score, i);
    }
  }

  /** No two entries share a key: `Distinct(Keys(groups))` said of the
      entries themselves, so that the induction over the map does not have to
      go through `Keys` (`DistinctKeysOf` converts) */
  predicate DistinctKeys(groups: seq<Group>) {
    forall a, b :: 0 <= a < b < |groups| ==> groups[a].key != groups[b].key
  }

  lemma DistinctKeysOf(groups: seq<Group>)
    requires Distinct(Keys(groups))
    ensures DistinctKeys(groups)
  {
    assert forall a :: 0 <= a < |groups| ==> Keys(groups)[a] == groups[a].key;
  }

  lemma {:induction false} AddScoreKeys(groups: seq<Group>, key: string, score: real)
    ensures var r := AddScore(groups, key, score);
            Keys(r) == if key in Keys(groups) then Keys(groups) else Keys(groups) + [key]
  {
    if |groups| > 0 {
      var r, head, rest := AddScore(groups, key, score), groups[0], groups[1..];
      assert Keys(groups) == [head.key] + Keys(rest);
      assert Keys(r) == [r[0].key] + Keys(r[1..]);
      if head.key == key {
        assert r[1..] == rest;
      } else {
        AddScoreKeys(rest, key, score);
        assert r[1..] == AddScore(rest, key, score);
        if key !in Keys(rest) {
          assert Keys(r) == [head.key] + (Keys(rest) + [key]);
        }
      }
    }
  }

  /** An entry under another key comes through unchanged, at the same place */
  lemma {:induction false} AddScoreKeeps(groups: seq<Group>, key: string, score: real, i: int)
    requires 0 <= i < |AddScore(groups, key, score)| && AddScore(groups, key, score)[i].key != key
    ensures i < |groups| && AddScore(groups, key, score)[i] == groups[i]
  {
    if |groups| > 0 && groups[0].key != key && i > 0 {
      AddScoreKeeps(groups[1..], key, score, i - 1);
    }
  }

  /** The entry under the key is the bumped old entry, or a bumped fresh one */
  lemma {:induction false} AddScoreBumps(groups: seq<Group>, key: string, score: real, i: int)
    requires DistinctKeys(groups)
    requires 0 <= i < |AddScore(groups, key, score)| && AddScore(groups, key, score)[i].key == key
    ensures AddScore(groups, key, score)[i] == Bump(Slot(groups, i, key), score)
  {
    if |groups| > 0 && groups[0].key != key {
      AddScoreBumps(groups[1..], key, score, i - 1);
    }
  }

  /** The map after the whole `forEach`, in insertion order */
  function Grouped(data: seq<StudentRecord>): (groups: seq<Group>)
    ensures |groups| <= |data|
    ensures forall i :: 0 <= i < |groups| ==> groups[i].count >= 1
  {
    if |data| == 0 then []
    else
      var last := data[|data| - 1];
      AddScore(Grouped(data[..|data| - 1]), KeyOf(last), last.examScore)
  }

  // ---------------------------------------------------------------------
  // Reference definitions

  function KeysOf(data: seq<StudentRecord>): (keys: seq<string>)
    ensures |keys| == |data|
  {
    if |data| == 0 then [] else KeysOf(data[..|data| - 1]) + [KeyOf(data[|data| - 1])]
  }

  /** The i-th key is the i-th record's key */
  lemma {:induction false} KeysOfAt(data: seq<StudentRecord>, i: int)
    requires 0 <= i < |data|
    ensures KeysOf(data)[i] == KeyOf(data[i])
  {
    if i < |data| - 1 {
      KeysOfAt(data[..|data| - 1], i);
    }
  }

  /** The distinct elements of s, in order of first occurrence */
  function Dedup(s: seq<string>): seq<string> {
    if |s| == 0 then []
    else
      var d := Dedup(s[..|s| - 1]);
      if s[|s| - 1] in d then d else d + [s[|s| - 1]]
  }

  /** How many records fall under a key */
  function CountKey(data: seq<StudentRecord>, key: string): nat {
    if |data| == 0 then 0
    else CountKey(data[..|data| - 1], key) + if KeyOf(data[|data| - 1]) == key then 1 else 0
  }

  /** The sum of the exam scores of the records under a key */
  function ScoreSum(data: seq<StudentRecord>, key: string): real {
    if |data| == 0 then 0.0
    else ScoreSum(data[..|data| - 1], key) + if KeyOf(data[|data| - 1]) == key then data[|data| - 1].examScore else 0.0
  }

  lemma {:induction false} DedupElements(s: seq<string>)
    ensures forall x :: x in Dedup(s) <==> x in s
    ensures Distinct(Dedup(s))
  {
    if |s| > 0 {
      DedupElements(s[..|s| - 1]);
      assert s == s[..|s| - 1] + [s[|s| - 1]];
    }
  }

  lemma {:induction false} CountKeyPositive(data: seq<StudentRecord>, key: string)
    ensures CountKey(data, key) > 0 <==> key in KeysOf(data)
  {
    if |data| > 0 {
      CountKeyPositive(data[..|data| - 1], key);
      assert KeysOf(data) == KeysOf(data[..|data| - 1]) + [KeyOf(data[|data| - 1])];
    }
  }

  /** The `forEach` grouping agrees with the reference definitions */
  lemma {:induction false} GroupedMatchesReference(data: seq<StudentRecord>)
    ensures Matches(data, Grouped(data))
  {
    if |data| > 0 {
      GroupedMatchesReference(data[..|data| - 1]);
      StepPreservesMatch(data, Grouped(data[..|data| - 1]));
    }
  }

  /** The grouping agrees with the reference definitions: the map's keys are
      the records' keys without repetition in order of first occurrence, each
      entry holds the count and score sum of exactly the records under its key,
      and the counts add up to the number of records. */
  ghost predicate Matches(data: seq<StudentRecord>, groups: seq<Group>) {
    && Keys(groups) == Dedup(KeysOf(data))
    && EntriesMatch(data, groups)
    && SumCounts(groups) == |data|
  }

  ghost predicate EntriesMatch(data: seq<StudentRecord>, groups: seq<Group>) {
    forall i :: 0 <= i < |groups| ==> EntryMatches(data, groups[i])
  }

  /** An entry holds the count and score sum of the records under its key */
  ghost predicate EntryMatches(data: seq<StudentRecord>, g: Group) {
    g.count == CountKey(data, g.key) && g.totalScore == ScoreSum(data, g.key)
  }

  /** One step of the fold keeps the grouping in agreement with the reference */
  lemma StepPreservesMatch(data: seq<StudentRecord>, before: seq<Group>)
    requires |data| > 0
    requires Matches(data[..|data| - 1], before)
    ensures Matches(data, AddScore(before, KeyOf(data[|data| - 1]), data[|data| - 1].examScore))
  {
    var prefix, last := data[..|data| - 1], data[|data| - 1];
    DedupElements(KeysOf(prefix));
    AddScoreKeys(before, KeyOf(last), last.examScore);
    StepPreservesEntries(data, before);
  }

  lemma StepPreservesEntries(data: seq<StudentRecord>, before: seq<Group>)
    requires |data| > 0
    requires Keys(before) == Dedup(KeysOf(data[..|data| - 1]))
    requires EntriesMatch(data[..|data| - 1], before)
    ensures EntriesMatch(data, AddScore(before, KeyOf(data[|data| - 1]), data[|data| - 1].examScore))
  {
    var prefix, last := data[..|data| - 1], data[|data| - 1];
    var key := KeyOf(last);
    var after := AddScore(before, key, last.examScore);
    DedupElements(KeysOf(prefix));
    DistinctKeysOf(before);
    AddScoreKeys(before, key, last.examScore);
    if key !in Keys(before) {
      NoRecordsUnderNewKey(prefix, before, key);
    }
    forall i | 0 <= i < |after|
      ensures EntryMatches(data, after[i])
    {
      if after[i].key != key {
        AddScoreKeeps(before, key, last.examScore, i);
        KeptEntry(data, before[i]);
      } else {
        AddScoreBumps(before, key, last.examScore, i);
        BumpedEntry(data, Slot(before, i, key), after[i]);
      }
    }
  }

  /** A key the map does not hold yet has no records: it starts from zero */
  lemma NoRecordsUnderNewKey(data: seq<StudentRecord>, groups: seq<Group>, key: string)
    requires Keys(groups) == Dedup(KeysOf(data)) && key !in Keys(groups)
    ensures EntryMatches(data, Group(key, 0.0, 0))
  {
    DedupElements(KeysOf(data));
    CountKeyPositive(data, key);
    ScoreSumAbsent(data, key);
  }

  /** An entry under another key than the new record's is still right */
  lemma KeptEntry(data: seq<StudentRecord>, g: Group)
    requires |data| > 0 && g.key != KeyOf(data[|data| - 1])
    requires EntryMatches(data[..|data| - 1], g)
    ensures EntryMatches(data, g)
  {
  }

  /** Bumping the entry of the new record's key with its score makes it right */
  lemma BumpedEntry(data: seq<StudentRecord>, g: Group, h: Group)
    requires |data| > 0 && g.key == KeyOf(data[|data| - 1])
    requires EntryMatches(data[..|data| - 1], g)
    requires h == Bump(g, data[|data| - 1].examScore)
    ensures EntryMatches(data, h)
  {
  }

  lemma {:induction false} ScoreSumAbsent(data: seq<StudentRecord>, key: string)
    requires key !in KeysOf(data)
    ensures ScoreSum(data, key) == 0.0
  {
    if |data| > 0 {
      assert KeysOf(data) == KeysOf(data[..|data| - 1]) + [KeyOf(data[|data| - 1])];
      ScoreSumAbsent(data[..|data| - 1], key);
    }
  }

  // ---------------------------------------------------------------------
  // Emitted buckets

  datatype Bucket = Bucket(hoursStudied: Option<int>, hoursSleep: Option<int>, avgScore: real)

  function ToBucket(g: Group): Bucket
    requires g.count >= 1
  {
    var (study, sleep) := DecodeKey(g.key);
    Bucket(study, sleep, g.totalScore / g.count as real)
  }

  function StudySleepBuckets(data: seq<StudentRecord>): seq<Bucket> {
    var groups := Grouped(data);
    seq(|groups|, i requires 0 <= i < |groups| => ToBucket(groups[i]))
  }

  datatype Charts = Charts(scoreVsAttendance: seq<Point>, avgScoreByStudyAndSleep: seq<Bucket>)

  function GetChartData(data: seq<StudentRecord>): Charts {
    Charts(ScoreVsAttendance(data), StudySleepBuckets(data))
  }

  /** The buckets, one per distinct key in order of first occurrence: each
      carries the decoded key and the mean exam score of its records, every
      record's key has exactly one bucket, and no records give no buckets. */
  lemma BucketsMatchReference(data: seq<StudentRecord>)
    ensures var keys, buckets := Dedup(KeysOf(data)), StudySleepBuckets(data);
            && |buckets| == |keys|
            && Distinct(keys)
            && (forall j :: 0 <= j < |data| ==> KeyOf(data[j]) in keys)
            && (forall i :: 0 <= i < |buckets| ==>
                  && CountKey(data, keys[i]) >= 1
                  && buckets[i].avgScore == ScoreSum(data, keys[i]) / CountKey(data, keys[i]) as real
                  && (buckets[i].hoursStudied, buckets[i].hoursSleep) == DecodeKey(keys[i]))
            && (data == [] ==> buckets == [])
  {
    GroupedMatchesReference(data);
    DedupElements(KeysOf(data));
    var keys, groups := Dedup(KeysOf(data)), Grouped(data);
    forall j | 0 <= j < |data| ensures KeyOf(data[j]) in keys {
      KeysOfAt(data, j);
    }
    forall i | 0 <= i < |groups| ensures groups[i].key == keys[i] {
      assert Keys(groups)[i] == groups[i].key;
    }
  }

  // ---------------------------------------------------------------------
  // Buckets as coordinates, for records with non-negative hours

  predicate NonNegativeHours(data: seq<StudentRecord>) {
    forall r :: r in data ==> r.hoursStudied.Floor >= 0 && r.sleepHours.Floor >= 0
  }

  /** A record's bucket as the chart should plot it */
  function PairOf(r: StudentRecord): (int, int) {
    (r.hoursStudied.Floor, r.sleepHours.Floor)
  }

  function Coordinates(b: Bucket): (Option<int>, Option<int>) {
    (b.hoursStudied, b.hoursSleep)
  }

  function PairCount(data: seq<StudentRecord>, p: (int, int)): nat {
    if |data| == 0 then 0
    else PairCount(data[..|data| - 1], p) + if PairOf(data[|data| - 1]) == p then 1 else 0
  }

  function PairScoreSum(data: seq<StudentRecord>, p: (int, int)): real {
    if |data| == 0 then 0.0
    else PairScoreSum(data[..|data| - 1], p) + if PairOf(data[|data| - 1]) == p then data[|data| - 1].examScore else 0.0
  }

  /** On non-negative buckets the string key and the pair identify each other */
  lemma KeyIdentifiesPair(r: StudentRecord, p: (int, int))
    requires r.hoursStudied.Floor >= 0 && r.sleepHours.Floor >= 0 && p.0 >= 0 && p.1 >= 0
    ensures KeyOf(r) == EncodeKey(p.0, p.1) <==> PairOf(r) == p
  {
    KeyRoundTrip(p.0, p.1);
    KeyRoundTrip(r.hoursStudied.Floor, r.sleepHours.Floor);
  }

  lemma {:induction false} KeyTotalsArePairTotals(data: seq<StudentRecord>, p: (int, int))
    requires NonNegativeHours(data) && p.0 >= 0 && p.1 >= 0
    ensures CountKey(data, EncodeKey(p.0, p.1)) == PairCount(data, p)
    ensures ScoreSum(data, EncodeKey(p.0, p.1)) == PairScoreSum(data, p)
  {
    if |data| > 0 {
      var last := data[|data| - 1];
      assert last in data;
      KeyIdentifiesPair(last, p);
      KeyTotalsArePairTotals(data[..|data| - 1], p);
    }
  }

  /** On non-negative data every emitted key is the key of a non-negative
      pair, and decoding it gives that pair back */
  lemma EmittedKeyIsPair(data: seq<StudentRecord>, i: int)
    requires NonNegativeHours(data)
    requires 0 <= i < |Dedup(KeysOf(data))|
    ensures var key := Dedup(KeysOf(data))[i];
            && DecodeKey(key).0.Some? && DecodeKey(key).1.Some?
            && DecodeKey(key).0.value >= 0 && DecodeKey(key).1.value >= 0
            && key == EncodeKey(DecodeKey(key).0.value, DecodeKey(key).1.value)
  {
    var key := Dedup(KeysOf(data))[i];
    DedupElements(KeysOf(data));
    assert key in KeysOf(data);
    var j :| 0 <= j < |data| && KeysOf(data)[j] == key;
    KeysOfAt(data, j);
    assert data[j] in data;
    KeyRoundTrip(PairOf(data[j]).0, PairOf(data[j]).1);
  }

  /** When no record has negative hours, every bucket has numeric coordinates
      and its score is the mean exam score of the records with that
      (floor study, floor sleep) pair */
  lemma NonNegativeBucketAverages(data: seq<StudentRecord>)
    requires NonNegativeHours(data)
    ensures var buckets := StudySleepBuckets(data);
            forall i :: 0 <= i < |buckets| ==>
              && buckets[i].hoursStudied.Some? && buckets[i].hoursSleep.Some?
              && var p := (buckets[i].hoursStudied.value, buckets[i].hoursSleep.value);
                 PairCount(data, p) >= 1 && buckets[i].avgScore == PairScoreSum(data, p) / PairCount(data, p) as real
  {
    BucketsMatchReference(data);
    var keys, buckets := Dedup(KeysOf(data)), StudySleepBuckets(data);
    forall i | 0 <= i < |buckets|
      ensures buckets[i].hoursStudied.Some? && buckets[i].hoursSleep.Some?
      ensures var p := (buckets[i].hoursStudied.value, buckets[i].hoursSleep.value);
              PairCount(data, p) >= 1 && buckets[i].avgScore == PairScoreSum(data, p) / PairCount(data, p) as real
    {
      EmittedKeyIsPair(data, i);
      var p := (DecodeKey(keys[i]).0.value, DecodeKey(keys[i]).1.value);
      KeyTotalsArePairTotals(data, p);
    }
  }

  /** When no record has negative hours, no two buckets share coordinates */
  lemma NonNegativeBucketsDistinct(data: seq<StudentRecord>)
    requires NonNegativeHours(data)
    ensures var buckets := StudySleepBuckets(data);
            forall i, j :: 0 <= i < j < |buckets| ==> Coordinates(buckets[i]) != Coordinates(buckets[j])
  {
    BucketsMatchReference(data);
    var keys, buckets := Dedup(KeysOf(data)), StudySleepBuckets(data);
    forall i, j | 0 <= i < j < |buckets| ensures Coordinates(buckets[i]) != Coordinates(buckets[j]) {
      EmittedKeyIsPair(data, i);
      EmittedKeyIsPair(data, j);
      assert keys[i] != keys[j];
    }
  }

  /** When no record has negative hours, every record's pair has a bucket */
  lemma NonNegativeBucketsCover(data: seq<StudentRecord>)
    requires NonNegativeHours(data)
    ensures var buckets := StudySleepBuckets(data);
            forall r :: r in data ==>
              exists i :: 0 <= i < |buckets| && Coordinates(buckets[i]) == (Some(PairOf(r).0), Some(PairOf(r).1))
  {
    BucketsMatchReference(data);
    var keys, buckets := Dedup(KeysOf(data)), StudySleepBuckets(data);
    forall r | r in data
      ensures exists i :: 0 <= i < |buckets| && Coordinates(buckets[i]) == (Some(PairOf(r).0), Some(PairOf(r).1))
    {
      var j :| 0 <= j < |data| && data[j] == r;
      var i :| 0 <= i < |keys| && keys[i] == KeyOf(r);
      KeyRoundTrip(PairOf(r).0, PairOf(r).1);
    }
  }

  /** Two records in the same bucket (5, 7) with scores 30 and 40 give the
      single bucket (5, 7) with average 35 */
  lemma TwoRecordsOneBucket(a: StudentRecord, b: StudentRecord)
    requires a.hoursStudied == 5.2 && a.sleepHours == 7.9 && a.examScore == 30.0
    requires b.hoursStudied == 5.9 && b.sleepHours == 7.1 && b.examScore == 40.0
    ensures StudySleepBuckets([a, b]) == [Bucket(Some(5), Some(7), 35.0)]
  {
    assert KeyOf(a) == KeyOf(b) == EncodeKey(5, 7);
    assert [a, b][..1] == [a];
    assert [a][..0] == [];
    var first := Grouped([a]);
    assert first == [Group(EncodeKey(5, 7), 30.0, 1)];
    assert Grouped([a, b]) == [Group(EncodeKey(5, 7), 70.0, 2)];
    KeyRoundTrip(5, 7);
  }
}

=== FILE: dashboard.dfy ===
/** The dashboard page as a state machine: the view state, the transitions
    that user actions cause, which gateway read a state asks for, the delete
    confirmation flow, the "showing X to Y of Z" label and the table's score
    colour band. Rendering and the asynchronous scheduling of fetches are not
    modelled; a fetch is represented by the gateway call it makes. */
module Dashboard {
  import opened Wrappers
  import opened Records
  import opened Gateway
  import JsText

  datatype ViewState = ViewState(
    data: Option<Paginated>,
    loading: bool,
    searchQuery: string,
    currentPage: int,
    pageSize: int,
    sortBy: SortField,
    sortOrder: SortOrder,
    deleteDialogOpen: bool,
    studentToDelete: Option<int>)

  /** The state on first render */
  const Initial := ViewState(None, true, "", 1, 10, StudentId, Asc, false, None)

  /** The first render lists page 1, ten per page, by ascending student id */
  lemma InitialFetch()
    ensures FetchCall(Initial) == ListCall(ListRequest(Some(1), Some(10), None, Some(StudentId), Some(Asc)))
    ensures Params(FetchCall(Initial)) == [PageParam(1), LimitParam(10), SortParam("student_id")]
  {
    assert Trim(Initial.searchQuery) == "";
    InitialParams();
  }

  lemma InitialParams()
    ensures ListingParams(ListRequest(Some(1), Some(10), None, Some(StudentId), Some(Asc)))
            == [PageParam(1), LimitParam(10), SortParam("student_id")]
  {
    assert SortValue(StudentId, Some(Asc)) == "student_id";
  }

  /** The values whose change makes the page fetch again */
  function Dependencies(s: ViewState): (string, int, int, SortField, SortOrder) {
    (s.searchQuery, s.currentPage, s.pageSize, s.sortBy, s.sortOrder)
  }

  predicate Refetches(before: ViewState, after: ViewState) {
    Dependencies(before) != Dependencies(after)
  }

  // ---------------------------------------------------------------------
  // Search text and the choice of endpoint

  /** The characters `String.prototype.trim` removes */
  predicate IsWhitespace(c: char) {
    || c == ' ' || c == '\t' || c == '\n' || c == '\r' || c == '\U{000B}' || c == '\U{000C}'
    || c == '\U{00A0}' || c == '\U{1680}' || ('\U{2000}' <= c <= '\U{200A}')
    || c == '\U{2028}' || c == '\U{2029}' || c == '\U{202F}' || c == '\U{205F}'
    || c == '\U{3000}' || c == '\U{FEFF}'
  }

  function TrimStart(s: string): (t: string)
    ensures |t| <= |s| && t == s[|s| - |t|..]
    ensures |t| > 0 ==> !IsWhitespace(t[0])
    ensures forall i :: 0 <= i < |s| - |t| ==> IsWhitespace(s[i])
  {
    if |s| > 0 && IsWhitespace(s[0]) then TrimStart(s[1..]) else s
  }

  function TrimEnd(s: string): (t: string)
    ensures |t| <= |s| && t == s[..|t|]
    ensures |t| > 0 ==> !IsWhitespace(t[|t| - 1])
    ensures forall i :: |t| <= i < |s| ==> IsWhitespace(s[i])
  {
    if |s| > 0 && IsWhitespace(s[|s| - 1]) then TrimEnd(s[..|s| - 1]) else s
  }

  function Trim(s: string): string {
    TrimEnd(TrimStart(s))
  }

  /** A query is blank after trimming exactly when all its characters are
      whitespace */
  lemma TrimEmptyIffBlank(s: string)
    ensures Trim(s) == "" <==> forall i :: 0 <= i < |s| ==> IsWhitespace(s[i])
  {
    var start := TrimStart(s);
    if Trim(s) != "" {
      assert !IsWhitespace(Trim(s)[0]);
      assert Trim(s)[0] == s[|s| - |start|];
    }
  }

  /** The read `fetchData` makes: the search endpoint, with the untrimmed
      query and no page or limit, when the query is not blank; otherwise the
      listing with the current page, page size and sort. */
  function FetchCall(s: ViewState): (c: Call)
    ensures c.SearchCall? <==> exists i :: 0 <= i < |s.searchQuery| && !IsWhitespace(s.searchQuery[i])
    ensures c.SearchCall? ==> c == SearchCall(s.searchQuery, None, None)
    ensures c.ListCall? ==>
              c.request == ListRequest(Some(s.currentPage), Some(s.pageSize), None, Some(s.sortBy), Some(s.sortOrder))
  {
    TrimEmptyIffBlank(s.searchQuery);
    if Trim(s.searchQuery) != "" then SearchCall(s.searchQuery, None, None)
    else ListCall(ListRequest(Some(s.currentPage), Some(s.pageSize), None, Some(s.sortBy), Some(s.sortOrder)))
  }

  /** A search sends only the query: paging and sorting do not reach it */
  lemma SearchSendsOnlyQuery(s: ViewState)
    requires FetchCall(s).SearchCall?
    ensures Params(FetchCall(s)) == [SearchParam(s.searchQuery)]
  {
  }

  /** In listing mode the request carries the state's page (when non-zero),
      page size (when non-zero) and sort */
  lemma ListingSendsPagingAndSort(s: ViewState)
    requires FetchCall(s).ListCall?
    ensures s.currentPage != 0 ==> PageParam(s.currentPage) in Params(FetchCall(s))
    ensures s.pageSize != 0 ==> LimitParam(s.pageSize) in Params(FetchCall(s))
    ensures SortParam(SortValue(s.sortBy, Some(s.sortOrder))) in Params(FetchCall(s))
  {
  }

  /** `fetchData` completing: a failed fetch keeps the previous data */
  function FetchDone(s: ViewState, response: Option<Paginated>): (r: ViewState)
    ensures !r.loading
    ensures response.Some? ==> r.data == response
    ensures response.None? ==> r.data == s.data
    ensures r.(data := s.data, loading := s.loading) == s
  {
    s.(data := if response.Some? then response else s.data, loading := false)
  }

  /** `fetchData` starting: `setLoading(true)` runs before the request goes
      out */
  function FetchStart(s: ViewState): (r: ViewState)
    ensures r.loading
    ensures r.(loading := s.loading) == s
  {
    s.(loading := true)
  }

  /** A state change followed by the render's effect, which starts a fetch
      when one of its dependencies changed */
  function Settle(before: ViewState, after: ViewState): ViewState {
    if Refetches(before, after) then FetchStart(after) else after
  }

  /** The loading flag is raised exactly when the change starts a fetch, the
      rest of the state is the change itself, and the request is the one the
      changed state asks for */
  lemma SettleRaisesLoading(before: ViewState, after: ViewState)
    ensures Settle(before, after).loading <==> after.loading || Refetches(before, after)
    ensures Settle(before, after).(loading := after.loading) == after
    ensures FetchCall(Settle(before, after)) == FetchCall(after)
  {
  }

  // ---------------------------------------------------------------------
  // Transitions

  function HandleSearch(s: ViewState, value: string): ViewState {
    s.(searchQuery := value, currentPage := 1)
  }

  /** The rows-per-page selector */
  function ChangePageSize(s: ViewState, size: int): ViewState {
    s.(pageSize := size, currentPage := 1)
  }

  function Flip(o: SortOrder): SortOrder {
    if o == Asc then Desc else Asc
  }

  function HandleSort(s: ViewState, field: SortField): ViewState {
    if s.sortBy == field then s.(sortOrder := Flip(s.sortOrder))
    else s.(sortBy := field, sortOrder := Asc)
  }

  function PreviousPage(s: ViewState): ViewState {
    s.(currentPage := if s.currentPage - 1 > 1 then s.currentPage - 1 else 1)
  }

  /** The Next button, rendered only once data has arrived, stops at the
      page count that data reports */
  function NextPage(s: ViewState): ViewState
    requires s.data.Some?
  {
    var totalPages := s.data.value.totalPages;
    s.(currentPage := if s.currentPage + 1 < totalPages then s.currentPage + 1 else totalPages)
  }

  function OpenDeleteDialog(s: ViewState, id: int): ViewState {
    s.(studentToDelete := Some(id), deleteDialogOpen := true)
  }

  /** Cancel, Escape or a click outside: only the open flag is reset */
  function CloseDeleteDialog(s: ViewState): ViewState {
    s.(deleteDialogOpen := false)
  }

  /** Clicking the current column flips the order, so a second click restores
      it; clicking another column selects it ascending. Nothing else changes
      and the page always fetches again. */
  lemma SortTransitions(s: ViewState, field: SortField)
    ensures field == s.sortBy ==> HandleSort(s, field).sortOrder != s.sortOrder
    ensures field == s.sortBy ==> HandleSort(HandleSort(s, field), field) == s
    ensures field != s.sortBy ==> HandleSort(s, field).sortBy == field && HandleSort(s, field).sortOrder == Asc
    ensures field != s.sortBy ==> HandleSort(HandleSort(s, field), field).sortOrder == Desc
    ensures HandleSort(s, field).(sortBy := s.sortBy, sortOrder := s.sortOrder) == s
    ensures Refetches(s, HandleSort(s, field))
    ensures Settle(s, HandleSort(s, field)) == FetchStart(HandleSort(s, field))
  {
  }

  /** A new search text or page size goes back to page 1 and keeps the sort
      and everything else */
  lemma ResetsToFirstPage(s: ViewState, value: string, size: int)
    ensures HandleSearch(s, value).currentPage == 1 && HandleSearch(s, value).searchQuery == value
    ensures HandleSearch(s, value).(searchQuery := s.searchQuery, currentPage := s.currentPage) == s
    ensures ChangePageSize(s, size).currentPage == 1 && ChangePageSize(s, size).pageSize == size
    ensures ChangePageSize(s, size).(pageSize := s.pageSize, currentPage := s.currentPage) == s
    ensures Settle(s, HandleSearch(s, value)).loading <==> s.loading || value != s.searchQuery || s.currentPage != 1
    ensures Settle(s, ChangePageSize(s, size)).loading <==> s.loading || size != s.pageSize || s.currentPage != 1
  {
  }

  /** Previous and Next keep a page within [1, totalPages], move by at most
      one, and undo each other away from the ends */
  lemma PagingStaysInRange(s: ViewState)
    requires s.data.Some? && 1 <= s.currentPage <= s.data.value.totalPages
    ensures var totalPages := s.data.value.totalPages;
            && 1 <= PreviousPage(s).currentPage <= totalPages
            && 1 <= NextPage(s).currentPage <= totalPages
            && PreviousPage(s).currentPage == (if s.currentPage == 1 then 1 else s.currentPage - 1)
            && NextPage(s).currentPage == (if s.currentPage == totalPages then totalPages else s.currentPage + 1)
            && (s.currentPage > 1 ==> NextPage(PreviousPage(s)) == s)
            && (s.currentPage < totalPages ==> PreviousPage(NextPage(s)) == s)
  {
  }

  /** In search mode paging changes the page number but not the request: the
      same first page of results is fetched again */
  lemma SearchModeIgnoresPaging(s: ViewState, size: int)
    requires FetchCall(s).SearchCall?
    ensures FetchCall(PreviousPage(s)) == FetchCall(s)
    ensures s.data.Some? ==> FetchCall(NextPage(s)) == FetchCall(s)
    ensures FetchCall(ChangePageSize(s, size)) == FetchCall(s)
  {
  }

  // ---------------------------------------------------------------------
  // Delete confirmation

  /** What `deleteRecord` did: resolved to its success flag, or threw */
  datatype DeleteOutcome = DeleteReported(ok: bool) | DeleteThrew

  /** The effects of `handleDelete`: the state afterwards, the id sent to the
      gateway (if any), the refresh it starts (if any) and the toast shown */
  datatype DeleteStep = DeleteStep(after: ViewState, deleteCall: Option<int>, refetch: Option<Call>, toast: Option<Toast>)

  /** A pending id that JavaScript reads as false: none, or 0 */
  predicate NothingToDelete(s: ViewState) {
    s.studentToDelete.None? || s.studentToDelete.value == 0
  }

  function HandleDelete(s: ViewState, outcome: DeleteOutcome): (step: DeleteStep)
    ensures NothingToDelete(s) ==> step == DeleteStep(s, None, None, None)
    ensures !NothingToDelete(s) ==>
              && step.deleteCall == s.studentToDelete
              && step.after.(loading := s.loading) == s.(deleteDialogOpen := false, studentToDelete := None)
              && (step.after.loading <==> s.loading || outcome == DeleteReported(true))
              && (step.refetch.Some? <==> outcome == DeleteReported(true))
              && (step.refetch.Some? ==> step.refetch.value == FetchCall(s))
              && step.toast.Some?
              && (step.toast.value.SuccessToast? <==> outcome == DeleteReported(true))
  {
    if NothingToDelete(s) then DeleteStep(s, None, None, None)
    else
      var id := s.studentToDelete.value;
      var closed := s.(deleteDialogOpen := false, studentToDelete := None);
      match outcome
      case DeleteReported(true) =>
        DeleteStep(FetchStart(closed), Some(id), Some(FetchCall(s)),
                   Some(SuccessToast("Student " + JsText.IntToString(id) + " deleted successfully")))
      case DeleteReported(false) =>
        DeleteStep(closed, Some(id), None, Some(ErrorToast("Failed to delete student")))
      case DeleteThrew =>
        DeleteStep(closed, Some(id), None, Some(ErrorToast("An error occurred while deleting")))
  }

  /** Opening the dialog arms it with the row's id; closing it hides the
      dialog but keeps the stale id; neither fetches */
  lemma DeleteDialogTransitions(s: ViewState, id: int)
    ensures OpenDeleteDialog(s, id).deleteDialogOpen && OpenDeleteDialog(s, id).studentToDelete == Some(id)
    ensures !Refetches(s, OpenDeleteDialog(s, id))
    ensures !CloseDeleteDialog(s).deleteDialogOpen && CloseDeleteDialog(s).studentToDelete == s.studentToDelete
    ensures !Refetches(s, CloseDeleteDialog(s))
    ensures Settle(s, OpenDeleteDialog(s, id)) == OpenDeleteDialog(s, id)
    ensures Settle(s, CloseDeleteDialog(s)) == CloseDeleteDialog(s)
  {
  }

  /** Confirming a delete of a real id makes exactly one delete call; on
      success exactly one refresh of the current view follows, and the
      state change itself does not trigger another */
  lemma ConfirmedDeleteRefetchesOnce(s: ViewState, id: int, outcome: DeleteOutcome)
    requires id != 0
    ensures var step := HandleDelete(OpenDeleteDialog(s, id), outcome);
            && step.deleteCall == Some(id)
            && !step.after.deleteDialogOpen && step.after.studentToDelete.None?
            && !Refetches(OpenDeleteDialog(s, id), step.after)
            && (outcome == DeleteReported(true) ==> step.after.loading)
            && (outcome == DeleteReported(true) ==> step.refetch == Some(FetchCall(s)))
            && (outcome != DeleteReported(true) ==> step.refetch.None?)
  {
  }

  // ---------------------------------------------------------------------
  // Pagination footer and table colours

  /** The footer, with the "Showing X to Y of Z records" label and the
      Previous/Next buttons, is rendered only when there is more than one page */
  predicate ShowsPagination(s: ViewState) {
    s.data.Some? && s.data.value.totalPages > 1
  }

  /** "Showing X to Y": the first and last row numbers of the current page */
  function RangeLabel(page: int, size: int, total: int): (int, int) {
    ((page - 1) * size + 1, if page * size < total then page * size else total)
  }

  /** On a page within the page count, the label names a non-empty range of
      at most one page of records, within the total */
  lemma RangeWithinTotal(page: int, size: int, total: int)
    requires total > 0 && size > 0
    requires 1 <= page <= Ceil(total as real / size as real)
    ensures var (first, last) := RangeLabel(page, size, total);
            1 <= first <= last <= total && last - first < size
  {
    PageCountBounds(total, size);
    var pages := Ceil(total as real / size as real);
    MultiplyMonotoneInt(page - 1, pages - 1, size);
    MultiplyMonotoneInt(1, page, size);
  }

  /** The label does not check the page: in search mode the page count comes
      from the default page size of ten while the label uses the selector's,
      so Next can go past the last row. A search matching 100 records, read
      with 50 rows per page, counts ten pages; three clicks on Next reach page
      4 without changing the request, and the label reads "151 to 100". */
  lemma LabelPastLastRow(s: ViewState, records: seq<StudentRecord>)
    requires s.searchQuery == "a" && s.pageSize == 50 && s.currentPage == 1
    requires |records| == 100
    requires s.data == Some(Normalise(DataArray(records), None, None))
    ensures FetchCall(s).SearchCall?
    ensures s.data.value.total == 100 && s.data.value.totalPages == 10
    ensures ShowsPagination(s)
    ensures var after := NextPage(NextPage(NextPage(s)));
            && after.currentPage == 4
            && FetchCall(after) == FetchCall(s)
            && RangeLabel(after.currentPage, after.pageSize, after.data.value.total) == (151, 100)
  {
    assert !IsWhitespace(s.searchQuery[0]);
    assert (100 as real / 10 as real).Floor == 10;
  }

  lemma MultiplyMonotoneInt(a: int, b: int, k: int)
    requires a <= b && k > 0
    ensures a * k <= b * k
  {
  }

  /** When the client computes the page count itself, the footer shows
      exactly when there are more records than fit on one page */
  lemma FooterShownIffOverflow(s: ViewState, env: Envelope, page: Option<int>, size: Option<int>)
    requires !Truthy(Meta(env).totalPages)
    requires s.data == Some(Normalise(env, page, size))
    requires s.data.value.total >= 0 && s.data.value.pageSize > 0
    ensures ShowsPagination(s) <==> s.data.value.total > s.data.value.pageSize
  {
    var d := s.data.value;
    if d.total > 0 {
      PageCountBounds(d.total, d.pageSize);
      if d.totalPages > 1 {
        MultiplyMonotoneInt(1, d.totalPages - 1, d.pageSize);
      }
    }
  }

  /** The colour of an exam score in the table */
  function TableBand(score: real): (b: Band)
    ensures b == Green <==> score >= 35.0
    ensures b == Yellow <==> 25.0 <= score < 35.0
    ensures b == Red <==> score < 25.0
  {
    if score >= 35.0 then Green else if score >= 25.0 then Yellow else Red
  }

  /** A higher score never gets a worse table colour */
  lemma TableBandMonotone(a: real, b: real)
    requires a <= b
    ensures TableBand(a).Rank() <= TableBand(b).Rank()
  {
  }
}

=== FILE: gateway.dfy ===
/** The gateway client: how a listing or search request is encoded as query
    parameters, how the gateway's varying response envelopes are normalised
    into one paginated shape, and the outcomes of create and update. The HTTP
    exchange itself is abstracted into its observable outcome (a status flag
    and an optional parsed body). */
module Gateway {
  import opened Wrappers
  import opened Records

  /** A number as JavaScript's `||` sees it: absent and 0 are both falsy */
  predicate Truthy(o: Option<int>) {
    o.Some? && o.value != 0
  }

  /** `o || fallback` for an optional number */
  function OrElse(o: Option<int>, fallback: int): int {
    if Truthy(o) then o.value else fallback
  }

  // ---------------------------------------------------------------------
  // Sort encoding

  /** The `sort` parameter: the field's name, prefixed by `-` when the order is
      descending; an absent order counts as ascending. */
  function SortValue(field: SortField, order: Option<SortOrder>): string {
    if order == Some(Desc) then "-" + FieldName(field) else FieldName(field)
  }

  /** How a `sort` parameter is read back: a leading `-` means descending */
  function ParseSort(v: string): Option<(SortField, SortOrder)> {
    if |v| > 0 && v[0] == '-' then
      match FieldNamed(v[1..])
      case Some(f) => Some((f, Desc))
      case None => None
    else
      match FieldNamed(v)
      case Some(f) => Some((f, Asc))
      case None => None
  }

  /** The sort parameter loses nothing: it reads back as the requested field,
      descending exactly when `desc` was asked for */
  lemma SortValueRoundTrip(field: SortField, order: Option<SortOrder>)
    ensures ParseSort(SortValue(field, order)) == Some((field, if order == Some(Desc) then Desc else Asc))
  {
    FieldNameRoundTrip(field);
    if order == Some(Desc) {
      assert SortValue(field, order)[1..] == FieldName(field);
    }
  }

  /** The `-` prefix is present exactly for descending order */
  lemma SortValuePrefix(field: SortField, order: Option<SortOrder>)
    ensures |SortValue(field, order)| > 0
    ensures SortValue(field, order)[0] == '-' <==> order == Some(Desc)
  {
  }

  // ---------------------------------------------------------------------
  // Query parameters

  datatype QueryParam =
    | PageParam(page: int)
    | LimitParam(limit: int)
    | SortParam(sort: string)
    | SearchParam(q: string)

  /** The arguments of a listing request; every one is optional */
  datatype ListRequest = ListRequest(
    page: Option<int>,
    pageSize: Option<int>,
    search: Option<string>,
    sortBy: Option<SortField>,
    sortOrder: Option<SortOrder>)

  /** A gateway read: the listing endpoint or the search endpoint */
  datatype Call =
    | ListCall(request: ListRequest)
    | SearchCall(query: string, page: Option<int>, limit: Option<int>)

  /** Query parameters of a listing request. Page and size are sent only when
      truthy (present and non-zero), the search text only when non-empty, and
      the sort only when a sort field is given. */
  function ListingParams(req: ListRequest): (qs: seq<QueryParam>)
    ensures |qs| <= 4
    ensures forall q :: q in qs && q.PageParam? ==> Truthy(req.page) && q.page == req.page.value
    ensures Truthy(req.page) ==> PageParam(req.page.value) in qs
    ensures forall q :: q in qs && q.LimitParam? ==> Truthy(req.pageSize) && q.limit == req.pageSize.value
    ensures Truthy(req.pageSize) ==> LimitParam(req.pageSize.value) in qs
    ensures forall q :: q in qs && q.SortParam? ==>
              req.sortBy.Some? && q.sort == SortValue(req.sortBy.value, req.sortOrder)
    ensures req.sortBy.Some? ==> SortParam(SortValue(req.sortBy.value, req.sortOrder)) in qs
    ensures forall q :: q in qs && q.SearchParam? ==> req.search == Some(q.q) && q.q != ""
    ensures req.search.Some? && req.search.value != "" ==> SearchParam(req.search.value) in qs
  {
    (if Truthy(req.page) then [PageParam(req.page.value)] else [])
    + (if Truthy(req.pageSize) then [LimitParam(req.pageSize.value)] else [])
    + (if req.sortBy.Some? then [SortParam(SortValue(req.sortBy.value, req.sortOrder))] else [])
    + (if req.search.Some? && req.search.value != "" then [SearchParam(req.search.value)] else [])
  }

  /** Query parameters of a search request: the query always and first, then
      page and limit whenever they are given, zero included. */
  function SearchParams(query: string, page: Option<int>, limit: Option<int>): (qs: seq<QueryParam>)
    ensures |qs| > 0 && qs[0] == SearchParam(query)
    ensures forall i :: 0 < i < |qs| ==> !qs[i].SearchParam?
    ensures forall q :: q in qs && q.PageParam? ==> page == Some(q.page)
    ensures page.Some? ==> PageParam(page.value) in qs
    ensures forall q :: q in qs && q.LimitParam? ==> limit == Some(q.limit)
    ensures limit.Some? ==> LimitParam(limit.value) in qs
    ensures forall q :: q in qs ==> !q.SortParam?
  {
    [SearchParam(query)]
    + (if page.Some? then [PageParam(page.value)] else [])
    + (if limit.Some? then [LimitParam(limit.value)] else [])
  }

  function Params(c: Call): seq<QueryParam> {
    match c
    case ListCall(req) => ListingParams(req)
    case SearchCall(query, page, limit) => SearchParams(query, page, limit)
  }

  /** Page 0 is dropped by the listing endpoint but sent by the search endpoint */
  lemma PageZeroTreatedDifferently(size: Option<int>, query: string)
    ensures PageParam(0) !in ListingParams(ListRequest(Some(0), size, None, None, None))
    ensures PageParam(0) in SearchParams(query, Some(0), None)
  {
  }

  // ---------------------------------------------------------------------
  // Response normalisation

  /** Pagination metadata as the gateway may send it; each part optional */
  datatype Pagination = Pagination(
    total: Option<int>,
    page: Option<int>,
    limit: Option<int>,
    totalPages: Option<int>)

  /** The three response shapes the client accepts: a bare array, an object
      whose `data` is the array, or `{data: {items, pagination}}` */
  datatype Envelope =
    | BareArray(records: seq<StudentRecord>)
    | DataArray(records: seq<StudentRecord>)
    | Wrapped(records: seq<StudentRecord>, pagination: Option<Pagination>)

  /** The normalised listing or search result */
  datatype Paginated = Paginated(
    data: seq<StudentRecord>,
    total: int,
    page: int,
    pageSize: int,
    totalPages: int)

  function Meta(env: Envelope): Pagination {
    match env
    case Wrapped(_, Some(p)) => p
    case _ => Pagination(None, None, None, None)
  }

  /** `Math.ceil` on a real */
  function Ceil(x: real): (c: int)
    ensures (c - 1) as real < x <= c as real
  {
    if x.Floor as real == x then x.Floor else x.Floor + 1
  }

  /** Fills in missing pagination metadata: the total from the item count,
      the page from the requested page and then 1, the page size from the
      requested size and then 10, and the page count by rounding up the
      quotient of total and page size. Absent and zero count as missing. */
  function Normalise(env: Envelope, requestedPage: Option<int>, requestedSize: Option<int>): (r: Paginated)
    ensures r.data == env.records
    ensures Truthy(Meta(env).total) ==> r.total == Meta(env).total.value
    ensures !Truthy(Meta(env).total) ==> r.total == |env.records|
    ensures Truthy(Meta(env).page) ==> r.page == Meta(env).page.value
    ensures !Truthy(Meta(env).page) && Truthy(requestedPage) ==> r.page == requestedPage.value
    ensures !Truthy(Meta(env).page) && !Truthy(requestedPage) ==> r.page == 1
    ensures Truthy(Meta(env).limit) ==> r.pageSize == Meta(env).limit.value
    ensures !Truthy(Meta(env).limit) && Truthy(requestedSize) ==> r.pageSize == requestedSize.value
    ensures !Truthy(Meta(env).limit) && !Truthy(requestedSize) ==> r.pageSize == 10
    ensures r.page != 0 && r.pageSize != 0
    ensures Truthy(Meta(env).totalPages) ==> r.totalPages == Meta(env).totalPages.value
    ensures !Truthy(Meta(env).totalPages) ==>
              (r.totalPages - 1) as real < r.total as real / r.pageSize as real <= r.totalPages as real
  {
    var m := Meta(env);
    var total := OrElse(m.total, |env.records|);
    var pageSize := OrElse(m.limit, OrElse(requestedSize, 10));
    Paginated(
      env.records,
      total,
      OrElse(m.page, OrElse(requestedPage, 1)),
      pageSize,
      OrElse(m.totalPages, Ceil(total as real / pageSize as real)))
  }

  /** Integer reading of the page count: with a positive total and page size,
      the last page is non-empty and holds the last record */
  lemma PageCountBounds(total: int, pageSize: int)
    requires total > 0 && pageSize > 0
    ensures var pages := Ceil(total as real / pageSize as real);
            pages >= 1 && (pages - 1) * pageSize < total <= pages * pageSize
  {
    var t, k := total as real, pageSize as real;
    var x := t / k;
    var pages := Ceil(x);
    var below, above := (pages - 1) as real, pages as real;
    QuotientTimesDivisor(t, k);
    ScaleBounds(below, x, above, k, t);
    CastProduct(pages - 1, pageSize);
    CastProduct(pages, pageSize);
    assert ((pages - 1) * pageSize) as real < t;
    assert t <= (pages * pageSize) as real;
  }

  lemma QuotientTimesDivisor(t: real, k: real)
    requires t > 0.0 && k > 0.0
    ensures t / k > 0.0 && (t / k) * k == t
  {
  }

  lemma CastProduct(a: int, b: int)
    ensures (a * b) as real == a as real * b as real
  {
  }

  /** Scaling `a < x <= b` by a positive k, where x * k is t */
  lemma ScaleBounds(a: real, x: real, b: real, k: real, t: real)
    requires a < x <= b && k > 0.0 && x * k == t
    ensures a * k < t <= b * k
  {
  }

  /** 23 records at 10 per page make 3 pages */
  lemma TwentyThreeRecordsMakeThreePages(records: seq<StudentRecord>)
    requires |records| == 23
    ensures Normalise(BareArray(records), None, None).totalPages == 3
  {
    assert (23 as real / 10 as real).Floor == 2;
  }

  // ---------------------------------------------------------------------
  // Update: fetch, merge, put

  /** A partial record: present fields replace the stored ones */
  datatype Patch = Patch(
    id: Option<int>,
    studentId: Option<string>,
    hoursStudied: Option<real>,
    sleepHours: Option<real>,
    attendancePercent: Option<real>,
    previousScores: Option<int>,
    examScore: Option<real>)

  /** A field's value, whatever its type */
  datatype FieldValue = IntValue(i: int) | TextValue(s: string) | RealValue(x: real)

  function Get(r: StudentRecord, f: SortField): FieldValue {
    match f
    case Id => IntValue(r.id)
    case StudentId => TextValue(r.studentId)
    case HoursStudied => RealValue(r.hoursStudied)
    case SleepHours => RealValue(r.sleepHours)
    case AttendancePercent => RealValue(r.attendancePercent)
    case PreviousScores => IntValue(r.previousScores)
    case ExamScore => RealValue(r.examScore)
  }

  /** The value a patch gives a field, if it gives one */
  function PatchGet(p: Patch, f: SortField): Option<FieldValue> {
    match f
    case Id => if p.id.Some? then Some(IntValue(p.id.value)) else None
    case StudentId => if p.studentId.Some? then Some(TextValue(p.studentId.value)) else None
    case HoursStudied => if p.hoursStudied.Some? then Some(RealValue(p.hoursStudied.value)) else None
    case SleepHours => if p.sleepHours.Some? then Some(RealValue(p.sleepHours.value)) else None
    case AttendancePercent =>
      if p.attendancePercent.Some? then Some(RealValue(p.attendancePercent.value)) else None
    case PreviousScores => if p.previousScores.Some? then Some(IntValue(p.previousScores.value)) else None
    case ExamScore => if p.examScore.Some? then Some(RealValue(p.examScore.value)) else None
  }

  /** `{...existing, ...updates}` */
  function Merge(existing: StudentRecord, updates: Patch): StudentRecord {
    StudentRecord(
      updates.id.GetOr(existing.id),
      updates.studentId.GetOr(existing.studentId),
      updates.hoursStudied.GetOr(existing.hoursStudied),
      updates.sleepHours.GetOr(existing.sleepHours),
      updates.attendancePercent.GetOr(existing.attendancePercent),
      updates.previousScores.GetOr(existing.previousScores),
      updates.examScore.GetOr(existing.examScore))
  }

  /** Field by field, the merge takes the patch's value when it has one and
      keeps the stored value otherwise */
  lemma MergeFieldwise(existing: StudentRecord, updates: Patch)
    ensures forall f :: Get(Merge(existing, updates), f) == PatchGet(updates, f).GetOr(Get(existing, f))
  {
    forall f: SortField
      ensures Get(Merge(existing, updates), f) == PatchGet(updates, f).GetOr(Get(existing, f))
    {
      match f
      case Id =>
      case StudentId =>
      case HoursStudied =>
      case SleepHours =>
      case AttendancePercent =>
      case PreviousScores =>
      case ExamScore =>
    }
  }

  /** Two records that agree on every field are the same record */
  lemma GetDeterminesRecord(a: StudentRecord, b: StudentRecord)
    requires forall f :: Get(a, f) == Get(b, f)
    ensures a == b
  {
    assert Get(a, Id) == Get(b, Id);
    assert Get(a, StudentId) == Get(b, StudentId);
    assert Get(a, HoursStudied) == Get(b, HoursStudied);
    assert Get(a, SleepHours) == Get(b, SleepHours);
    assert Get(a, AttendancePercent) == Get(b, AttendancePercent);
    assert Get(a, PreviousScores) == Get(b, PreviousScores);
    assert Get(a, ExamScore) == Get(b, ExamScore);
  }

  /** The patch `q` applied after `p`, as a single patch */
  function Then(p: Patch, q: Patch): Patch {
    Patch(
      if q.id.Some? then q.id else p.id,
      if q.studentId.Some? then q.studentId else p.studentId,
      if q.hoursStudied.Some? then q.hoursStudied else p.hoursStudied,
      if q.sleepHours.Some? then q.sleepHours else p.sleepHours,
      if q.attendancePercent.Some? then q.attendancePercent else p.attendancePercent,
      if q.previousScores.Some? then q.previousScores else p.previousScores,
      if q.examScore.Some? then q.examScore else p.examScore)
  }

  /** An empty patch changes nothing, merging the same patch twice is merging
      it once, and successive merges compose */
  lemma MergeLaws(r: StudentRecord, p: Patch, q: Patch)
    ensures Merge(r, Patch(None, None, None, None, None, None, None)) == r
    ensures Merge(Merge(r, p), p) == Merge(r, p)
    ensures Merge(Merge(r, p), q) == Merge(r, Then(p, q))
  {
  }

  /** What `updateRecord` does: the PUT that is sent (if any) and the value
      it resolves to */
  datatype UpdateOutcome = UpdateOutcome(put: Option<StudentRecord>, result: Option<StudentRecord>)

  /** `fetched` is what the preliminary GET returned (`None` for a failed or
      missing fetch); `putOk` is the PUT's status. */
  function UpdateRecord(fetched: Option<StudentRecord>, updates: Patch, putOk: bool): (u: UpdateOutcome)
    ensures fetched.None? ==> u.put.None? && u.result.None?
    ensures fetched.Some? ==> u.put == Some(Merge(fetched.value, updates))
    ensures u.result.Some? <==> fetched.Some? && putOk
    ensures u.result.Some? ==> u.result == u.put
  {
    match fetched
    case None => UpdateOutcome(None, None)
    case Some(existing) =>
      var merged := Merge(existing, updates);
      UpdateOutcome(Some(merged), if putOk then Some(merged) else None)
  }

  // ---------------------------------------------------------------------
  // Create

  /** The body posted by `createRecord`: the generated display id and the
      user's fields */
  datatype Submission = Submission(studentId: string, fields: RecordFields)

  /** A parsed JSON body as `createRecord` reads it: `null`, whose `data`
      property cannot be read; a falsy value that has properties (`false`,
      `0` or `""`); or a truthy value with its `data` property (`None` when
      undefined, as for any non-object) and, when the value is itself a
      student record, that record */
  datatype Json = NullJson | FalsyJson | TruthyJson(data: Option<Json>, record: Option<StudentRecord>)

  /** A property read that JavaScript treats as true */
  predicate TruthyJsonValue(j: Option<Json>) {
    j.Some? && j.value.TruthyJson?
  }

  /** The outcome of the POST: a non-success status, a success whose body is
      not JSON (so `response.json()` throws), or a success with a parsed body */
  datatype CreateResponse =
    | Rejected(statusText: string)
    | Unparsable
    | JsonBody(body: Json)

  /** What `createRecord` resolves to: a truthy value from the server, or the
      locally built submission when the body was `false`, `0` or `""` */
  datatype Created = FromServer(value: Json) | LocalCopy(submission: Submission) {
    /** Its `student_id`; `None` is `undefined`, read from a value that is not
        a student record */
    function StudentId(): Option<string> {
      match this
      case FromServer(v) => if v.TruthyJson? && v.record.Some? then Some(v.record.value.studentId) else None
      case LocalCopy(s) => Some(s.studentId)
    }
  }

  /** `createRecord`: throws on a non-success status, on a body that does not
      parse and on a `null` body (reading `result.data` fails), and otherwise
      resolves to `result.data || result || newRecord` */
  function CreateRecord(studentId: string, fields: RecordFields, resp: CreateResponse): (r: Result<Created, string>)
    ensures r.Failure? <==> !resp.JsonBody? || resp.body.NullJson?
    ensures resp.Rejected? ==> r.error == "Failed to create record: " + resp.statusText
    ensures resp.JsonBody? && resp.body.NullJson? ==> r.error == "Cannot read properties of null (reading 'data')"
    ensures resp.JsonBody? && TruthyJsonValue(Some(resp.body)) && TruthyJsonValue(resp.body.data) ==>
              r == Success(FromServer(resp.body.data.value))
    ensures resp.JsonBody? && TruthyJsonValue(Some(resp.body)) && !TruthyJsonValue(resp.body.data) ==>
              r == Success(FromServer(resp.body))
    ensures resp.JsonBody? && resp.body.FalsyJson? ==> r == Success(LocalCopy(Submission(studentId, fields)))
    ensures r.Success? && r.value.FromServer? ==> r.value.value.TruthyJson?
  {
    match resp
    case Rejected(text) => Failure("Failed to create record: " + text)
    case Unparsable => Failure("the response body is not JSON")
    case JsonBody(body) =>
      match body
      case NullJson => Failure("Cannot read properties of null (reading 'data')")
      case FalsyJson => Success(LocalCopy(Submission(studentId, fields)))
      case TruthyJson(data, _) =>
        if TruthyJsonValue(data) then Success(FromServer(data.value)) else Success(FromServer(body))
  }

  /** The `student_id` of what `createRecord` resolves to: a `null` body
      resolves to nothing; otherwise the id is the generated one when the
      body is `false`, `0` or `""`, the record under a truthy `data`, or else
      the body as a record, and it is defined exactly when the value chosen
      is a student record */
  lemma {:induction false} CreatedStudentId(studentId: string, fields: RecordFields, body: Json)
    ensures CreateRecord(studentId, fields, JsonBody(body)).Success? <==> !body.NullJson?
    ensures !body.NullJson? ==>
              var id := CreateRecord(studentId, fields, JsonBody(body)).value.StudentId();
              var chosen := if body.FalsyJson? then None
                            else if TruthyJsonValue(body.data) then body.data.value.record
                            else body.record;
              && (body.FalsyJson? ==> id == Some(studentId))
              && (body.TruthyJson? ==> id == (if chosen.Some? then Some(chosen.value.studentId) else None))
              && (id.None? <==> body.TruthyJson? && chosen.None?)
  {
    if body.TruthyJson? && TruthyJsonValue(body.data) {
      assert CreateRecord(studentId, fields, JsonBody(body)) == Success(FromServer(body.data.value));
    }
  }

  /** A truthy body that is not a record and has no truthy `data`, such as
      `{success: true}`, is returned as it is, with no `student_id` */
  lemma NonRecordBodyHasNoStudentId(studentId: string, fields: RecordFields)
    ensures CreateRecord(studentId, fields, JsonBody(TruthyJson(None, None))) == Success(FromServer(TruthyJson(None, None)))
    ensures CreateRecord(studentId, fields, JsonBody(TruthyJson(None, None))).value.StudentId().None?
  {
  }
}

=== FILE: js_text.dfy ===
/** The few JavaScript string operations the chart aggregation relies on:
    rendering an integer in a template literal, `String.prototype.split` with
    a one-character separator, and `Number` applied to the pieces. */
module JsText {
  import opened Wrappers

  predicate IsDigit(c: char) {
    '0' <= c <= '9'
  }

  predicate AllDigits(s: string) {
    forall i :: 0 <= i < |s| ==> IsDigit(s[i])
  }

  function DigitChar(d: nat): (c: char)
    requires d < 10
    ensures IsDigit(c) && c as int - '0' as int == d
  {
    ['0', '1', '2', '3', '4', '5', '6', '7', '8', '9'][d]
  }

  /** Decimal rendering of a natural number, without leading zeros */
  function NatToString(n: nat): (s: string)
    ensures |s| > 0 && AllDigits(s)
    decreases n
  {
    if n < 10 then [DigitChar(n)] else NatToString(n / 10) + [DigitChar(n % 10)]
  }

  /** `${n}` for an integer-valued number: a minus sign, then the digits */
  function IntToString(n: int): (s: string)
    ensures |s| > 0
    ensures n < 0 <==> s[0] == '-'
  {
    if n < 0 then "-" + NatToString(-n) else NatToString(n)
  }

  /** The value of a string of decimal digits; the empty string is 0 */
  function DigitsValue(s: string): nat
    requires AllDigits(s)
  {
    if |s| == 0 then 0 else DigitsValue(s[..|s| - 1]) * 10 + (s[|s| - 1] as int - '0' as int)
  }

  /** `Number(s)` on the strings that splitting a bucket key can produce:
      `""` is 0, a digit string is its value, anything else is not a number
      (`None`, standing for NaN). */
  function JsNumber(s: string): (n: Option<int>)
    ensures n.Some? <==> AllDigits(s)
    ensures s == "" ==> n == Some(0)
  {
    if AllDigits(s) then Some(DigitsValue(s)) else None
  }

  /** `s.split(sep)`: the maximal pieces between occurrences of `sep`, so a
      string holding k separators splits into k + 1 pieces, some possibly empty */
  function Split(s: string, sep: char): (pieces: seq<string>)
    ensures |pieces| > 0
    ensures forall i :: 0 <= i < |pieces| ==> sep !in pieces[i]
    decreases |s|
  {
    if |s| == 0 then [""]
    else
      var rest := Split(s[1..], sep);
      if s[0] == sep then [""] + rest else [[s[0]] + rest[0]] + rest[1..]
  }

  /** Reading back a rendered natural number gives the number */
  lemma {:induction false} NatToStringRoundTrip(n: nat)
    ensures DigitsValue(NatToString(n)) == n
    decreases n
  {
    if n >= 10 {
      var s := NatToString(n);
      NatToStringRoundTrip(n / 10);
      assert s[..|s| - 1] == NatToString(n / 10);
    }
  }

  /** `Number` reads back what a template literal rendered, for a
      non-negative integer */
  lemma NumberReadsRendering(n: nat)
    ensures JsNumber(IntToString(n)) == Some(n)
  {
    NatToStringRoundTrip(n);
  }

  /** A string without the separator is a single piece */
  lemma {:induction false} SplitNoSeparator(s: string, sep: char)
    requires sep !in s
    ensures Split(s, sep) == [s]
    decreases |s|
  {
    if |s| > 0 {
      SplitNoSeparator(s[1..], sep);
      assert [s[0]] + s[1..] == s;
    }
  }

  /** A leading separator splits off an empty first piece */
  lemma SplitLeading(t: string, sep: char)
    ensures Split([sep] + t, sep) == [""] + Split(t, sep)
  {
    assert ([sep] + t)[1..] == t;
  }

  /** Splitting at a separator splits the pieces on either side of it */
  lemma {:induction false} SplitAtSeparator(a: string, b: string, sep: char)
    requires sep !in a
    ensures Split(a + [sep] + b, sep) == [a] + Split(b, sep)
    decreases |a|
  {
    if |a| == 0 {
      assert a + [sep] + b == [sep] + b;
      assert ([sep] + b)[1..] == b;
    } else {
      SplitAtSeparator(a[1..], b, sep);
      assert (a + [sep] + b)[1..] == a[1..] + [sep] + b;
      assert [a[0]] + a[1..] == a;
    }
  }
}

=== FILE: records.dfy ===
/** The entities shared by the gateway client, the dashboard and the charts. */
module Records {
  import opened Wrappers

  /** One student's row as the gateway stores it. Numbers that JavaScript keeps
      as doubles are reals here; `previous_scores` and `id` are integers. */
  datatype StudentRecord = StudentRecord(
    id: int,
    studentId: string,
    hoursStudied: real,
    sleepHours: real,
    attendancePercent: real,
    previousScores: int,
    examScore: real)

  /** The five values a user types into the add-record form, after parsing:
      a record without its server id and display id. */
  datatype RecordFields = RecordFields(
    hoursStudied: real,
    sleepHours: real,
    attendancePercent: real,
    previousScores: int,
    examScore: real)

  /** The keys of a student record, as used for sorting */
  datatype SortField =
    | Id | StudentId | HoursStudied | SleepHours | AttendancePercent | PreviousScores | ExamScore

  datatype SortOrder = Asc | Desc

  /** The wire name of a record field */
  function FieldName(f: SortField): (name: string)
    ensures |name| > 0 && name[0] != '-'
  {
    match f
    case Id => "id"
    case StudentId => "student_id"
    case HoursStudied => "hours_studied"
    case SleepHours => "sleep_hours"
    case AttendancePercent => "attendance_percent"
    case PreviousScores => "previous_scores"
    case ExamScore => "exam_score"
  }

  /** The field with a given wire name, if there is one */
  function FieldNamed(name: string): (f: Option<SortField>)
    ensures f.Some? ==> FieldName(f.value) == name
  {
    if name == "id" then Some(Id)
    else if name == "student_id" then Some(StudentId)
    else if name == "hours_studied" then Some(HoursStudied)
    else if name == "sleep_hours" then Some(SleepHours)
    else if name == "attendance_percent" then Some(AttendancePercent)
    else if name == "previous_scores" then Some(PreviousScores)
    else if name == "exam_score" then Some(ExamScore)
    else None
  }

  /** Wire names identify fields: reading back a field's name gives the field */
  lemma FieldNameRoundTrip(f: SortField)
    ensures FieldNamed(FieldName(f)) == Some(f)
  {
  }

  /** A transient notification shown to the user */
  datatype Toast = SuccessToast(message: string) | ErrorToast(message: string)

  /** The three colour bands used to display an exam score */
  datatype Band = Red | Yellow | Green {
    /** Position of the band, worst first */
    function Rank(): nat {
      match this
      case Red => 0
      case Yellow => 1
      case Green => 2
    }
  }
}

=== FILE: scatter_colour.dfy ===
/** The colour scale of the study/sleep scatter chart. Its lower threshold
    (30) differs from the exam score colours of the dashboard table (25). */
module ScatterColour {
  import opened Records
  import Dashboard

  /** The band `getColor` picks for an average score */
  function ChartBand(score: real): (b: Band)
    ensures b == Green <==> score >= 35.0
    ensures b == Yellow <==> 30.0 <= score < 35.0
    ensures b == Red <==> score < 30.0
  {
    if score >= 35.0 then Green else if score >= 30.0 then Yellow else Red
  }

  function Hex(b: Band): string {
    match b
    case Green => "#10b981"
    case Yellow => "#f59e0b"
    case Red => "#ef4444"
  }

  /** `getColor`: green from 35, yellow from 30, red below */
  function GetColor(score: real): (colour: string)
    ensures colour == "#10b981" <==> score >= 35.0
    ensures colour == "#f59e0b" <==> 30.0 <= score < 35.0
    ensures colour == "#ef4444" <==> score < 30.0
  {
    Hex(ChartBand(score))
  }

  /** A higher average score never gets a worse colour */
  lemma GetColorMonotone(a: real, b: real)
    requires a <= b
    ensures ChartBand(a).Rank() <= ChartBand(b).Rank()
  {
  }

  /** The chart and the table colour a score alike except in [25, 30), where
      the table shows yellow and the chart red */
  lemma ChartAndTableBands(score: real)
    ensures ChartBand(score) != Dashboard.TableBand(score) <==> 25.0 <= score < 30.0
    ensures 25.0 <= score < 30.0 ==> ChartBand(score) == Red && Dashboard.TableBand(score) == Yellow
  {
  }
}

=== FILE: wrappers.dfy ===
/** Failure-compatible wrappers used throughout the model: `Option` stands for a
    JavaScript value that may be `null`/`undefined`, `Result` for an operation
    that either yields a value or reports an error. */
module Wrappers {

  datatype Option<+T> = None | Some(value: T) {

    /** The wrapped value, or `default` when there is none */
    function GetOr(default: T): T {
      match this
      case Some(v) => v
      case None => default
    }
  }

  datatype Result<+R, +E> = Success(value: R) | Failure(error: E)
}
